=== FILE: README.md ===
# Telegram bot routing pipeline, modelled in Dafny

This project models the message path of a small long-polling Telegram bot.

- **The polling loop.** Each poll sees only the newest update. The loop remembers the id of the last update it handled, answers the newest update of a poll when that id differs from the remembered one and the update carries text, and stops when `handle_message` returns the shutdown marker `__SHUTDOWN__` (whether a command or the role service produced it).
- **`handle_message`.** An authorisation decorator runs first, then a chain of responsibility (a censorship link and a logging link). After that a command factory picks a command class by the first word of the text.
- **The five commands:**
  - `/help` lists the commands in sorted order with their whitespace-collapsed docstrings.
  - `/shutdown` lets only the configured administrator stop the bot.
  - `/dev` runs developer sub-commands for the ids listed in `ADMIN_IDS`.
  - `/currency` gives the rate of one currency against the hryvnia.
  - `/currency1` converts an amount between two currencies, using a regular expression to parse the request.
- **The currency API helper.** It keeps the known currency codes in a `currency.json` cache file, which it refreshes only when its map is empty.

The bullets above describe the program with the two corrections listed under "## Findings" applied, and so does the whole `Core` model. `Core.HandleMessage` loads the administrator id through the corrected `Decorators.LoadAdminId`, and `Factories.Execute` answers `/help` through the corrected `HelpMenu.Handle`. As written, `require_auth` raises on every call (`Decorators.AsWrittenAlwaysRaises`), so the first text update the loop dispatches makes `handle_message` raise and ends `run()`: no command, `/help` and `/shutdown` included, ever answers. As written, `/help` would also raise on its own (`HelpMenu.AsWrittenAlwaysRaises`).

The model is purely functional:
- Telegram, the rate API and the role service are oracles passed in as function values.
- The environment is a record of strings.
- The cache file and the requests issued are threaded through every call as an `Io` value.
- Python's string operations are defined in `Text`, `Numerals` and `Order`: `split()`, `split(sep)`, `strip()`, `join`, `in`, `replace`, `upper()`, `str(int)`, `int(str)`, `isdigit()` and `sorted`.
- The regular expression of `/currency1` is the module `ConvertPattern`, a scan for the leftmost position where a deterministic per-position matcher succeeds.
- Each matcher is proved sound and complete against a declarative description of the pattern.

One Dafny module per source file:
- `core.dfy` for `bot/core.py`, `handlers.dfy`, `decorators.dfy` and `factories.dfy`.
- `command_table.dfy` holds the factory's keyword table.
- `help_menu.dfy`, `shutdown.dfy`, `command_dev.dfy`, `command_currency.dfy` and `command_currency1.dfy` hold the commands.
- `currency_helper.dfy` models `bot/helper/currency_helper.py`, and `currency_pattern.dfy` the regular expression of `/currency1`.
- `api.dfy` describes requests, answers and effects.
- `base.dfy` and `config.dfy` hold the command interface and the environment.
- `wrappers.dfy` defines `Option` and `Result`.

`create_command` builds a fresh command instance on every call (bot/factories.py:39-44). So every message sees the cache file as it is at that moment (`Factories.FreshInstanceSeesFile`).

## Model

| member | source | states |
|---|---|---|
| Core.Dispatch | bot/core.py:61-69 | A text containing `badword` is answered with the block message and nothing else happens. Otherwise a text with no word raises `IndexError`. An unregistered first word gets exactly "Unknown command. Type /help.". A registered one runs that command on the full text, chat and user, with the cache file as it is now. |
| Core.HandleMessage | bot/core.py:51-69 | An unreadable `ADMIN_ID` raises `ValueError` before anything runs. Otherwise the administrator, and anyone the role service grants, reaches the body. Anyone else gets the service's answer with no effect. |
| Core.Start | bot/core.py:94-98 | The loop starts running with nothing sent, and the update present at start-up only seeds the last id. |
| Core.Step | bot/core.py:99-119 | A missing update, a repeated id or a halted loop changes nothing. A new update without a text only advances the id. For a new text, `handle_message` decides the turn. If it raises, the loop crashes with that error and sends nothing. If it returns the marker, the loop stops after sending the farewell to the originating chat, with nothing else. Any other reply is sent verbatim to the originating chat, and the loop keeps running with the update's id. Each turn sends at most one message, never the marker, and only appends to the log. |
| Core.SentinelNeverSent | bot/core.py:110-115 | Over any number of turns, the marker itself is never sent to a chat. |
| Core.RepliesBounded | bot/core.py:99-115 | After `n` turns at most `n` messages have been sent. |
| Core.HaltedStaysHalted | bot/core.py:110-113 | Once the loop has stopped or crashed, later states equal it. |
| Core.SentGrows | bot/core.py:109-115 | The log of sent messages only grows: an earlier log is a prefix of every later one. |
| Core.SeedNeverAnswered | bot/core.py:94-102 | While `getUpdates` keeps returning the start-up update, the state stays the initial one: that update is never dispatched. |
| Core.LastIdIsLatest | bot/core.py:94-119 | While the loop runs, the remembered id is that of the latest update fetched at all, texts or not, the start-up fetch included. |
| Core.NoveltyAgainstLatest | bot/core.py:101-109 | A running loop calls `handle_message` for the next fetch exactly when it holds a text message and its id differs from the latest fetched id. An older id that comes back is dispatched again. |
| Core.SentCountsDispatches | bot/core.py:109-115 | Over any number of turns, the messages sent equal the `handle_message` calls, less one if the last of them raised. |
| Core.ShutdownStops | bot/core.py:109-113 | The administrator's `/shutdown` stops the loop after sending the farewell to that chat. |
| Core.AdminShutsDown | bot/core.py:51-68 | With `ADMIN_ID` set to `str(n)`, user `n` sending a text whose first word is `/shutdown` obtains the marker, with no effect. |
| Core.PaddedAdminCannotShutDown | bot/core.py:51-68 | With `ADMIN_ID` set to `" " + str(n)`, user `n` passes the decorator, but `/shutdown` refuses them. |
| Core.SentinelNeedsAdmin | bot/core.py:51-68 | If the role service never answers with the marker, a marker reply implies: a readable `ADMIN_ID`, no bad word, first word `/shutdown`, and a user whose `str` equals the configured id. |
| Core.DispatchSentinel | bot/core.py:61-68 | Past the decorator, a marker reply implies no bad word, first word `/shutdown`, and a user whose `str` equals the configured id. |
| Core.BlankTextRaises | bot/core.py:65 | A whitespace-only text (the empty text included) that passes the chain raises `IndexError`. |
| Core.ShutdownSelected | bot/factories.py:24-44 | The keyword `/shutdown` is registered and selects the shutdown class. |
| Handlers.Handle | bot/handlers.py:13-36 | A link answers either `None` or the block message. |
| Handlers.HandleVerdict | bot/handlers.py:13-23 | A chain answers the block message exactly when it has a censorship link and the text contains `badword` case-sensitively, and `None` otherwise. |
| Handlers.TransparentLink | bot/handlers.py:33-36 | A logging link in front of a chain answers exactly what the chain answers. |
| Handlers.ChainVerdict | bot/core.py:43-49 | The bot's censorship-then-logging chain blocks exactly the texts containing `badword`, and answers `None` for every other text. |
| Handlers.SetNext | bot/handlers.py:9-11 | The successor becomes the argument; the chain's kinds are the link's kind followed by the successor's. |
| Handlers.BuildHandlerChain | bot/core.py:43-49 | The chain is censorship followed by logging. |
| Decorators.LoadAdminIdAsWritten | bot/decorators.py:23-24 | As written, reading `ADMIN_ID` always fails. Unset raises `TypeError`, non-numeric raises `ValueError`, and numeric raises `AttributeError` from `.strip()` on an `int`. |
| Decorators.AsWrittenAlwaysRaises | bot/decorators.py:23-24 | As written, every decorated call raises and has no effect. |
| Decorators.LoadAdminId | bot/decorators.py:22-34 | As intended: unset or blank fails with `ValueError`. Otherwise it succeeds exactly when `int()` accepts the text, with `int()`'s value. |
| Decorators.LoadsDecimalId | bot/decorators.py:29-30 | The corrected reading accepts `str(n)` as `n`. |
| Decorators.LoadsPaddedId | bot/decorators.py:29-30 | The corrected reading accepts `str(n)` surrounded by whitespace as `n`. |
| Decorators.Decide | bot/decorators.py:37-44 | The administrator is always granted; anyone else gets the role service's answer for the full text. |
| Decorators.RequireAuth | bot/decorators.py:35-44 | An id failure raises with no effect. A grant runs the wrapped call. A refusal returns the service's value without running it. |
| Decorators.AdminIgnoresService | bot/decorators.py:37-40 | For the administrator the role service is never consulted: any two services give the same result, which is the wrapped call's. |
| Decorators.RunsOrNothing | bot/decorators.py:37-44 | The wrapper either runs the wrapped call or has no effect. |
| CommandTable.Find | bot/factories.py:41 | `dict.get` over the table: `None` exactly for an absent key, otherwise a class the key is paired with. |
| CommandTable.FindUnique | bot/factories.py:24-35 | With unique keys, lookup returns the class the key is paired with. |
| CommandTable.CommandsMapKeys | bot/factories.py:24-35 | The table holds exactly `/help`, `/shutdown`, `/currency`, `/dev`, `/currency1`. |
| CommandTable.BaseCommand | bot/factories.py:40 | The key is the prefix of the name up to, and not including, the first single space. |
| CommandTable.Lookup | bot/factories.py:40-44 | A class is chosen exactly when the base command is a registered key, and it is the class the key maps to. |
| CommandTable.TextAfterSpaceIgnored | bot/factories.py:40-41 | Text after the first space never affects the chosen class. |
| CommandTable.TabIsNotSeparator | bot/factories.py:40 | A tab does not end the keyword. |
| CommandTable.UpperCaseUnknown | bot/factories.py:41-44 | `/HELP` selects nothing, while `/help` selects the help command. |
| Factories.Construct | bot/factories.py:42-43 | A constructed instance belongs to the requested class, and its helper is built from the environment and the current cache file. |
| Factories.CreateCommand | bot/factories.py:38-44 | `None` exactly for an unregistered base command. Otherwise it is a fresh instance of the mapped class. |
| Factories.Execute | bot/factories.py:42-43 | Executing an instance always returns a reply, and only the currency commands have effects. The reply is the marker exactly for `/shutdown` run by the configured administrator. |
| Factories.WordSelectsItself | bot/core.py:65-66 | For a word with no whitespace, the lookup key is the word itself, and a command is built exactly for the five keywords. |
| Factories.ArgumentsIgnored | bot/factories.py:40-43 | The arguments after the keyword do not influence which command is built. |
| Factories.FreshInstanceSeesFile | bot/factories.py:43 | A currency command built now holds the map the cache file holds now. |
| Factories.KeywordsCaseSensitive | bot/factories.py:41-44 | `/HELP` builds nothing and `/help` builds the help command. |
| Factories.CurrencySpaced | bot/commands/command_currency.py:63-94 | Every `/currency` reply contains a space, so it can never be the marker. |
| Factories.Currency1Spaced | bot/commands/command_currency1.py:54-97 | Every `/currency1` reply contains a space, so it can never be the marker. |
| Factories.DevSpaced | bot/commands/command_dev.py:31-82 | Every `/dev` reply contains a space, so it can never be the marker. |
| HelpMenu.Describe | bot/commands/help_menu.py:31-34 | An absent or empty docstring gives the fallback text. Any other docstring gives a text with the same words, single-spaced and trimmed, and no newline. |
| HelpMenu.BlankDocstringIsEmpty | bot/commands/help_menu.py:31-34 | A docstring of whitespace only is truthy and yields an empty description. |
| HelpMenu.SortedKeys | bot/commands/help_menu.py:25 | The listing order is a sorted permutation of the table's keys. |
| HelpMenu.SortedKeysAre | bot/commands/help_menu.py:25 | Any sorted permutation of the keys is exactly the listing order. |
| HelpMenu.FactoryKeysSorted | bot/commands/help_menu.py:25 | The factory's keys are listed as `/currency`, `/currency1`, `/dev`, `/help`, `/shutdown`. |
| HelpMenu.SortedCommandKeys | bot/commands/help_menu.py:25 | The same listing order, for the factory's actual table. |
| HelpMenu.Entries | bot/commands/help_menu.py:25-36 | One `name - description` entry per name, in the given order. |
| HelpMenu.HelpLayout | bot/commands/help_menu.py:19-38 | Split at newlines, the reply is the header, then one entry per key in sorted order, then the empty piece after the final newline. |
| HelpMenu.HelpLines | bot/commands/help_menu.py:19-38 | For the factory's keys, the reply's lines are the header and the five entries in sorted order. |
| HelpMenu.HelpForIsJoin | bot/commands/help_menu.py:19-38 | The reply is the header and the entries, each followed by a newline. |
| HelpMenu.FactoryAttribute | bot/factories.py:24 | The factory defines only the attribute `commands_map`. |
| HelpMenu.HandleAsWritten | bot/commands/help_menu.py:22 | As written, the handler can return only if the factory had a `command_map` attribute. |
| HelpMenu.AsWrittenAlwaysRaises | bot/commands/help_menu.py:22 | As written, every `/help` raises `AttributeError`. |
| HelpMenu.Handle | bot/commands/help_menu.py:12-38 | Corrected, `/help` returns the listing of the factory's table, whatever the text, chat or user. |
| HelpMenu.HelpHasSpace | bot/commands/help_menu.py:19 | Every help reply contains a space, so it can never be the marker. |
| Shutdown.Execute | bot/commands/shutdown.py:19-30 | The marker is returned exactly when `str(user_id)` equals the configured text; otherwise the denial is returned. |
| Shutdown.EmptyAdminLocksOut | bot/commands/shutdown.py:24 | With no administrator configured, nobody obtains the marker. |
| Shutdown.PaddedAdminLocksOut | bot/commands/shutdown.py:24 | A configured id with whitespace at either end matches no user. |
| Shutdown.OnlyAdminShutsDown | bot/commands/shutdown.py:24-30 | With `str(admin)` configured, exactly that user obtains the marker. |
| Shutdown.IgnoresTextAndChat | bot/commands/shutdown.py:19-30 | Text and chat never influence the answer. |
| CommandDev.DigitTokens | bot/commands/command_dev.py:23 | The ids are exactly the values of the all-digit tokens; no more ids than tokens, none negative. |
| CommandDev.ParseAdminIdsOfJoin | bot/commands/command_dev.py:22-23 | Ids written as `str(id)` and joined by commas parse back to the same list. |
| CommandDev.SpacedListDropsIds | bot/commands/command_dev.py:23 | In `"1, 2"` the token `" 2"` is not all digits, so only `1` is kept. |
| CommandDev.SubCommand | bot/commands/command_dev.py:37-40 | The sub-command is the second word, or `get_ids` when there is none. |
| CommandDev.Args | bot/commands/command_dev.py:41 | The arguments are the words from the third onward, or none. |
| CommandDev.RunSubCommand | bot/commands/command_dev.py:44-51 | `get_ids` gives the ids text. `help` gives the sub-command list. Anything else gives the unknown-sub-command text. |
| CommandDev.Handle | bot/commands/command_dev.py:31-54 | An unlisted user gets the denial; a listed one gets the selected handler's reply. |
| CommandDev.DenialIffUnlisted | bot/commands/command_dev.py:33-34 | The reply is the denial exactly when the user is not listed. |
| CommandDev.DefaultIsGetIds | bot/commands/command_dev.py:40 | `/dev` alone answers like `/dev get_ids`. |
| CommandDev.GetIdsCarriesIds | bot/commands/command_dev.py:71-73 | The `get_ids` reply contains both the user id and the chat id. |
| CommandDev.HelpListsSubCommands | bot/commands/command_dev.py:26-29 | Split at newlines, the help reply is the heading, then `get_ids` and `help` in table order. |
| CommandCurrency.Code | bot/commands/command_currency.py:72-75 | The code is the upper-cased second word, or `USD` when there is none. |
| CommandCurrency.Handle | bot/commands/command_currency.py:63-94 | A construction failure is reported with no effect. Otherwise the reply is the answer for the code of the text. |
| CommandCurrency.Answer | bot/commands/command_currency.py:77-94 | An invalid code gives the not-found reply after validation only. A valid code issues exactly one request, for one unit into `UAH`, and reports its answer. |
| CommandCurrency.HandleSpaced | bot/commands/command_currency.py:63-94 | Every reply contains a space. |
| CommandCurrency.ConvertsOnlyValidCodes | bot/commands/command_currency.py:78-83 | A conversion is requested exactly when the helper exists and the code is valid. |
| CommandCurrency.HandleDependsOnCode | bot/commands/command_currency.py:72-94 | Texts naming the same code get the same answer and effects. |
| CommandCurrency.DefaultIsUsd | bot/commands/command_currency.py:72-75 | `/currency` behaves exactly like `/currency USD`. |
| CommandCurrency.CodeIgnoresOtherWords | bot/commands/command_currency.py:72-75 | Only the second word matters, upper-cased; words after it are ignored. |
| CommandCurrency.CodeOfBareCommand | bot/commands/command_currency.py:73 | `/currency` names `USD`. |
| CommandCurrency1.Clean | bot/commands/command_currency1.py:62 | The searched text has no whitespace at either end. A text without `/currency1` is only stripped. |
| CommandCurrency1.KeywordRemovedAnywhere | bot/commands/command_currency1.py:62 | An occurrence of `/currency1` anywhere in the text is removed, and the text on each side is cleaned independently. Between two keyword-free pieces the result is the stripped concatenation of the pieces. |
| CommandCurrency1.Handle | bot/commands/command_currency1.py:54-97 | A construction failure is reported with no effect. No match of the pattern in the cleaned text gives the usage hint with no effect. A match is answered from its groups. |
| CommandCurrency1.Answer | bot/commands/command_currency1.py:74-97 | The source code is validated before the target. A conversion of the upper-cased codes and the matched amount is requested only after both are valid, and its answer is reported. |
| CommandCurrency1.HandleSpaced | bot/commands/command_currency1.py:54-97 | Every reply contains a space. |
| CommandCurrency1.ConvertsOnlyAfterBothChecks | bot/commands/command_currency1.py:80-86 | Any conversion request implies the pattern matched and both codes were valid. |
| CommandCurrency1.TargetIgnoredWhenSourceUnknown | bot/commands/command_currency1.py:80-81 | An unknown source is reported by name, and the target plays no part. |
| CommandCurrency1.RemovePrefixWord | bot/commands/command_currency1.py:62 | Removing a word, then stripping, turns the word, a space and a trimmed text free of that word into the text. |
| CommandCurrency1.CommandWordRemoved | bot/commands/command_currency1.py:62 | `/currency1 ` followed by a trimmed text free of `/currency1` is cleaned to that text. |
| CommandCurrency1.NoAmountGetsUsage | bot/commands/command_currency1.py:62-71 | A request with no digit gets the usage hint, with nothing validated or converted. |
| ConvertPattern.ScanSound | bot/commands/command_currency1.py:66 | Every span the per-position scanner finds satisfies the pattern's declarative description. |
| ConvertPattern.ScanComplete | bot/commands/command_currency1.py:66 | Every span satisfying the description at a position is the one the scanner finds there, so the match at a position is unique. |
| ConvertPattern.MatchAtSound | bot/commands/command_currency1.py:66 | Every groups triple the matcher returns is a match of the pattern at that position. |
| ConvertPattern.MatchAtComplete | bot/commands/command_currency1.py:66 | Every match of the pattern at a position is what the matcher returns there. |
| ConvertPattern.SearchFrom | bot/commands/command_currency1.py:66 | The scan returns the first position from its start where the matcher succeeds, or reports that none exists. |
| ConvertPattern.SearchIsLeftmost | bot/commands/command_currency1.py:66 | `re.search`: a result is a match at some position with no match further left, and no result means no match anywhere. |
| ConvertPattern.NoDigitNoMatch | bot/commands/command_currency1.py:66-71 | A text with no digit never matches. |
| ConvertPattern.TargetNeedsNoBoundary | bot/commands/command_currency1.py:66 | `10 USD to EURO` matches with target `EUR`: nothing is required after the target. |
| ConvertPattern.CaseInsensitiveMatch | bot/commands/command_currency1.py:66 | Letters and `to` match in either case; the groups keep the text's case. |
| ConvertPattern.DigitEnd | bot/commands/command_currency1.py:66 | The greedy `\d+` run from a position ends at the first non-digit. |
| ConvertPattern.SpaceEnd | bot/commands/command_currency1.py:66 | The greedy `\s+` run from a position ends at the first non-whitespace. |
| ConvertPattern.AmountEndComplete | bot/commands/command_currency1.py:66 | An amount followed by whitespace is exactly the one the greedy scan finds. |
| ConvertPattern.TailComplete | bot/commands/command_currency1.py:66 | Any way of reading `\s+[A-Z]{3}\s+to\s+[A-Z]{3}` at a position is the one the scanner reads. |
| CurrencyHelper.New | bot/helper/currency_helper.py:31-44 | Construction fails, with the fixed message, exactly when the URL or the key is unset or empty. Otherwise the helper holds both and the cache file's map. |
| CurrencyHelper.LoadCache | bot/helper/currency_helper.py:69-77 | A missing or malformed file, or one without `currencies`, gives the empty map; otherwise its `currencies`. |
| CurrencyHelper.MakeRequest | bot/helper/currency_helper.py:46-67 | Exactly one request is appended, to `base_url/endpoint`, carrying the API key; the oracle answers it. |
| CurrencyHelper.UpdateCache | bot/helper/currency_helper.py:105-119 | One `list` request. On success the file and the map take the answer's currencies and the result is `True`. Otherwise nothing changes and the result is `False`. |
| CurrencyHelper.IsValidCurrency | bot/helper/currency_helper.py:79-88 | The answer is membership of the upper-cased code. A refresh happens exactly when the map is empty. No conversion is requested. |
| CurrencyHelper.Convert | bot/helper/currency_helper.py:90-103 | One `convert` request with upper-cased codes, the amount and the API key. |
| CurrencyHelper.UpdateCacheCoherent | bot/helper/currency_helper.py:105-119 | A refresh keeps the helper's map and the cache file in step, whether or not it succeeds. |
| CurrencyHelper.IsValidCurrencyCoherent | bot/helper/currency_helper.py:79-88 | Validation keeps the map and the file in step. |
| CurrencyHelper.NewCoherent | bot/helper/currency_helper.py:31-44 | A new helper's map is the file's. |
| CurrencyHelper.SecondCheckIsLocal | bot/helper/currency_helper.py:85-86 | Once a check leaves a non-empty map, the next check issues no request. |
| CurrencyHelper.FailedRefreshRejects | bot/helper/currency_helper.py:85-88 | An empty map whose refresh fails rejects every code. |
| CurrencyHelper.ValidityIgnoresCase | bot/helper/currency_helper.py:87 | A code and its upper-cased form get the same answer and effects. |
| Api.Classify | bot/commands/command_currency.py:86-94 | Shared by both conversion commands. A successful answer with a result is a rate, one without a result is the no-result case, and anything else is a failure with its reason. |
| Api.FailureReason | bot/commands/command_currency.py:93 | No answer or an empty object gives `ошибка сети`. An object gives its `error.info`, or `неизвестная ошибка` when that is absent. |
| Config.ConfiguredAdminId | bot/config.py:12 | An unset `ADMIN_ID` reads as the empty text. |
| Text.Words | bot/core.py:65 | `split()` yields non-empty pieces without whitespace. |
| Text.WordsEmptyIff | bot/core.py:65 | A text has no words exactly when it is all whitespace. |
| Text.WordsSeparated | bot/core.py:65 | The words of any text, in order, are separated by whitespace gaps that make up the rest of it, with a non-empty gap between neighbouring words. |
| Text.WordsOfInterleave | bot/core.py:65 | Conversely, a text built from words separated by such gaps splits into exactly those words, so the words are the maximal non-whitespace runs in order. |
| Text.WordsOfJoin | bot/commands/help_menu.py:34 | Splitting the single-space join of a word list gives the list back. |
| Text.WordsOfStrip | bot/commands/help_menu.py:34 | `strip()` before `split()` changes nothing. |
| Text.Strip | bot/commands/help_menu.py:34 | The result has no whitespace at either end and is the input with whitespace only removed around it. |
| Text.StripOfPadded | bot/commands/command_currency1.py:62 | Stripping whitespace around a trimmed text gives the text. |
| Text.Split | bot/factories.py:40 | `split(sep)` yields pieces without the separator that join back to the input. |
| Text.SplitOfJoin | bot/commands/command_dev.py:23 | Splitting the join of separator-free pieces gives the pieces back. |
| Text.ContainsIff | bot/handlers.py:21 | `p in s` holds exactly when `p` occurs at some position of `s`. |
| Text.ReplaceAbsent | bot/commands/command_currency1.py:62 | `replace` leaves a text without the pattern unchanged. |
| Text.ReplaceConcat | bot/commands/command_currency1.py:62 | When no occurrence of the pattern straddles the boundary, replacing in a concatenation replaces in each piece. |
| Text.ReplaceAroundOccurrence | bot/commands/command_currency1.py:62 | For a pattern whose first character does not recur in it, an occurrence is replaced whatever surrounds it. |
| Text.Upper | bot/commands/command_currency1.py:76-77 | `upper()` keeps the length and maps ASCII lower-case letters to upper case. |
| Text.UpperIdempotent | bot/helper/currency_helper.py:87 | Upper-casing twice is upper-casing once. |
| Numerals.NatToStr | bot/commands/command_dev.py:73 | `str(n)` is the shortest digit spelling of `n`. |
| Numerals.ParseIntToStr | bot/decorators.py:30 | `int(str(n)) == n`. |
| Numerals.IntToStrInjective | bot/commands/shutdown.py:24 | Distinct ids have distinct `str` spellings. |
| Order.Sort | bot/commands/help_menu.py:25 | `sorted` yields a sorted permutation. |
| Order.SortedUnique | bot/commands/help_menu.py:25 | A multiset of strings has only one sorted arrangement. |
| Order.BelowTotal | bot/commands/help_menu.py:25 | Python's string order is total. |
| Order.BelowAntisymmetric | bot/commands/help_menu.py:25 | Python's string order is antisymmetric. |
| Order.BelowTransitive | bot/commands/help_menu.py:25 | Python's string order is transitive. |

## Left out

- Telegram and the rate API are oracles. `get_last_update`, `send_message` and `_make_request` are not modelled as HTTP calls: `poll`, the recorded `Send` values and `Net` stand in for them. Only `_make_request` catches request exceptions; there a raised exception is a `None` answer.
- `get_last_update` and `send_message` (bot/core.py:71-78 and 88-91) catch nothing. A network error, a non-JSON body or a missing `"result"` key raises out of `run()` and ends the bot. In the model `poll` and sending never fail, so this way of ending is not modelled.
- Only `result[-1]` of each `getUpdates` answer is looked at (bot/core.py:74-76), and it is compared with the last handled id only (bot/core.py:102). Updates that a later one supersedes within the same poll are never answered, and an older id that comes back as the newest is answered again. The model has the same behaviour: `poll(i)` is that newest update, and nothing about the other entries of `result` is modelled.
- `time.sleep(1.5)` and `sys.exit(0)` are left out; leaving the loop is the `Stopped` status.
- `log_command`, `LoggingHandler`'s `logger.info`, and every `print` only print. So `log_command` is not modelled and the logging link is a pass-through.
- `load_dotenv` and `os.getenv` are not modelled. The environment is a record of the configured strings.
- `check_command_access` lives in a role module that is not part of this model. It is an oracle over the full text and the user id, answering `True` or a reply.
- Floats are not modelled. The amount is kept as its matched digit string, and a rate as its `:.2f` rendering. The amount's `:.2f` rendering in the `/currency1` reply is a function parameter.
- `isdigit()`, `\d` and `str.upper()` are modelled on ASCII only. So is the case-insensitive `[A-Z]`, which Python would also let match a few non-ASCII letters. Whitespace is the full `str.isspace()` set.
- Numerals.ParseInt: accepts sign, surrounding whitespace and ASCII digits only. It does not model underscores between digits or non-ASCII digits, which `int()` also accepts.
- JSON `null` is not distinguished from an absent key: the model uses the default of `dict.get(key, default)` for both, while Python returns `None` for a key that is present with the value `null`. Three consequences are not modelled:
  - `"error"` in a failed answer that is `null` or not an object (a string, a number or a list): `.get('error', {})` returns that value, and `.get('info', …)` on it raises `AttributeError` (bot/commands/command_currency.py:93, bot/commands/command_currency1.py:96), which ends `run()`. `Api.ApiError` is only the object shape, and the model answers with `неизвестная ошибка`.
  - `"info": null` makes the reply end in `Причина: None`; the model answers with `неизвестная ошибка`.
  - `"currencies": null` in the cache file or in a successful list answer sets the map to `None` (bot/helper/currency_helper.py:75 and 115), so the next membership test (line 88) raises `TypeError`; the model uses the empty map.
- CurrencyHelper.LoadCache and Api.Body: three failures are not representable, so the model never produces them.
  - A cache file that is not valid UTF-8 makes `json.load` raise `UnicodeDecodeError`, which the `except` at bot/helper/currency_helper.py:76 does not catch. It leaves `CurrencyHelper()`, and since it is a `ValueError` the commands turn it into their initialisation-error reply (bot/commands/command_currency.py:57, bot/commands/command_currency1.py:50). The model has no such file; `Malformed` stands only for a decoding error that is caught and gives the empty map.
  - JSON that is valid but not an object. In the cache file, `data.get` raises `AttributeError` (bot/helper/currency_helper.py:75), which leaves construction uncaught and ends `run()`. In an API answer, `.get('success')` raises `AttributeError` (bot/helper/currency_helper.py:111, bot/commands/command_currency.py:86, bot/commands/command_currency1.py:89). `Body` only has object shapes.
  - An `OSError` from `open` other than `FileNotFoundError`, such as `PermissionError` or `IsADirectoryError`. On the read (bot/helper/currency_helper.py:72) the `except` at line 76 does not catch it, and since it is not a `ValueError` it also escapes the commands' constructors (bot/commands/command_currency.py:57, bot/commands/command_currency1.py:50) and ends `run()`. On the write after a successful refresh (bot/helper/currency_helper.py:113) it escapes `is_valid_currency` and ends `run()`. In the model, reading the cache, building a helper and refreshing the cache never fail.
- The singleton in `__new__`, the `is_initialized` guard and the `url` field are left out: one bot is modelled.
- Handler chains are finite values, so a cyclic chain (which would recurse forever) is not representable.
- The undefined name `admin_id_str` at bot/decorators.py:33 is reached only on the branch that the corrected reading merges into a plain `ValueError`. The `NameError` it would raise is not modelled.
- The `except` around `/dev` sub-handlers (bot/commands/command_dev.py:52-54) is unreachable once the handler's keyword arguments are bound, so `RunSubCommand` always succeeds and the error text is defined but never produced.
- The abstract classes of bot/base.py are only interfaces; they become the `Outcome` type and the `Execute` functions.
- The user and notification services and the logger setup are not part of this model.

## Findings

| source | as written | input that shows it | evidently intended | confidence | as-written member | corrected member |
|---|---|---|---|---|---|---|
| bot/decorators.py:23-24 | `int(os.getenv("ADMIN_ID"))`, then `.strip()` on the resulting `int` | `ADMIN_ID="42"`: `int` has no `strip`, so every decorated call raises `AttributeError` (and an unset variable raises `TypeError`) | test the raw text for being unset or blank, then convert it with `int()` | high, not executed | Decorators.AsWrittenAlwaysRaises | Decorators.LoadsDecimalId |
| bot/commands/help_menu.py:22 | reads `CommandFactory.command_map` | any `/help`: the factory defines `commands_map` (bot/factories.py:24), so `AttributeError` is raised | read `CommandFactory.commands_map` | high, not executed | HelpMenu.AsWrittenAlwaysRaises | HelpMenu.HelpLines |

=== FILE: api.dfy ===
/** What the currency helper exchanges with the outside world: HTTP requests to the
    rate API, their decoded JSON answers, and the `currency.json` cache file. */
module Api {
  import opened Wrappers

  /** A numeric value returned by the API, known only through its `:.2f` rendering. */
  datatype Rate = Rate(fixed2: string)

  /** The `error` object of an API answer; an `error` that is not an object has no value here. */
  datatype ApiError = ApiError(info: Option<string>)

  /** A decoded JSON answer: the empty object `{}`, which Python treats as false, or an
      object whose absent keys are `None` (and `false` for `success`). JSON that is not an
      object has no value here. */
  datatype Body = EmptyObject | Object(
    success: bool,
    result: Option<Rate>,
    error: Option<ApiError>,
    currencies: Option<map<string, string>>)

  /** `None` when the request raised (network failure, HTTP error status, bad JSON). */
  type Response = Option<Body>

  /** An amount sent for conversion: `float(digits)`. */
  datatype Amount = Amount(digits: string)

  /** The endpoint-specific query parameters. */
  datatype Query = ListQuery | ConvertQuery(from: string, to: string, amount: Amount)

  /** One GET request: the endpoint URL, the `access_key` parameter and the rest. */
  datatype Request = Request(url: string, accessKey: string, query: Query)

  /** The network: the answer to a request, given how many requests came before it. */
  type Net = (Request, nat) -> Response

  /** The contents of `currency.json`: absent, not parseable as JSON, or a JSON object that
      keeps its `currencies` entry. A file that cannot be opened for another reason has no
      value here. */
  datatype CacheFile = Missing | Malformed | Document(currencies: Option<map<string, string>>)

  /** The observable effects so far: the cache file and the requests issued. */
  datatype Io = Io(file: CacheFile, requests: seq<Request>)

  /** A value together with the effects produced while computing it. */
  datatype Effect<T> = Effect(value: T, io: Io)

  /** `result_data and result_data.get('success')`. */
  predicate Succeeded(r: Response) {
    r.Some? && r.value.Object? && r.value.success
  }

  const NetworkFailure := "ошибка сети"
  const UnknownFailure := "неизвестная ошибка"

  /** The `Причина:` part of a failed conversion reply: the API's `error.info` when the
      answer is a non-empty object, a fixed text otherwise. */
  function FailureReason(r: Response): (reason: string)
    ensures r.None? || r == Some(EmptyObject) ==> reason == NetworkFailure
    ensures r.Some? && r.value.Object? && r.value.error.Some? && r.value.error.value.info.Some?
            ==> reason == r.value.error.value.info.value
    ensures r.Some? && r.value.Object? && (r.value.error.None? || r.value.error.value.info.None?)
            ==> reason == UnknownFailure
  {
    match r
    case Some(Object(_, _, Some(ApiError(Some(info))), _)) => info
    case Some(Object(_, _, _, _)) => UnknownFailure
    case _ => NetworkFailure
  }

  /** How a conversion command reads an answer: a rate, a successful answer without a
      result, or a failure with its reason. */
  datatype Verdict = Converted(rate: Rate) | NoResult | Failed(reason: string)

  /** The branching both conversion commands apply to a `convert` answer. */
  function Classify(r: Response): (v: Verdict)
    ensures v.Converted? <==> Succeeded(r) && r.value.result.Some?
    ensures v.Converted? ==> r.value.result == Some(v.rate)
    ensures v.NoResult? <==> Succeeded(r) && r.value.result.None?
    ensures v.Failed? <==> !Succeeded(r)
    ensures v.Failed? ==> v.reason == FailureReason(r)
  {
    if Succeeded(r) then
      match r.value.result
      case Some(rate) => Converted(rate)
      case None => NoResult
    else Failed(FailureReason(r))
  }

  /** `io'` only appended requests to `io`'s. */
  predicate Extends(io: Io, io': Io) {
    |io.requests| <= |io'.requests| && io'.requests[..|io.requests|] == io.requests
  }

  lemma ExtendsReflexive(io: Io)
    ensures Extends(io, io)
  {
  }

  lemma ExtendsTransitive(a: Io, b: Io, c: Io)
    requires Extends(a, b) && Extends(b, c)
    ensures Extends(a, c)
  {
    assert c.requests[..|a.requests|] == c.requests[..|b.requests|][..|a.requests|];
  }

  /** No conversion request was issued between `io` and `io'`. */
  predicate NoConversion(io: Io, io': Io)
    requires Extends(io, io')
  {
    forall k :: |io.requests| <= k < |io'.requests| ==> !io'.requests[k].query.ConvertQuery?
  }
}

=== FILE: base.dfy ===
/** The command interface every command class implements: `execute(text, chat_id,
    user_id)` answers with an optional reply text, or raises. */
module Base {
  import opened Wrappers

  /** A reply to send back; `None` is Python's `None`. */
  type Reply = Option<string>

  /** The Python exceptions that can escape the modelled code. */
  datatype ErrorKind = AttributeError | IndexError | TypeError | ValueError

  /** The result of calling a Python function: it returned a reply or it raised. */
  datatype Outcome = Returned(reply: Reply) | Raised(error: ErrorKind)

  /** Python truthiness of a reply: `None` and `""` are false. */
  predicate Truthy(r: Reply) {
    r.Some? && r.value != ""
  }
}

=== FILE: command_currency.dfy ===
/** `/currency [CODE]`: the rate of one currency against the hryvnia, `USD` by default. */
module CommandCurrency {
  import opened Wrappers
  import Text
  import Config
  import opened Api
  import CurrencyHelper

  const InitFailure := "Ошибка инициализации команды: "

  /** The state `CurrencyStrategy.__init__` builds: a helper, or the construction error. */
  datatype Strategy = Strategy(helper: Result<CurrencyHelper.Helper, string>)

  /** The requested code: the upper-cased second word, `USD` when there is none. */
  function Code(text: string): (code: string)
    ensures |Text.Words(text)| > 1 ==> code == Text.Upper(Text.Words(text)[1])
    ensures |Text.Words(text)| <= 1 ==> code == "USD"
  {
    Text.WordsOfStrip(text);
    var parts := Text.Words(Text.Strip(text));
    if |parts| > 1 then Text.Upper(parts[1]) else "USD"
  }

  function NotFound(code: string): string {
    "Не удалось найти валюту с кодом '" + code + "'. "
    + "Пожалуйста, используйте стандартный трехбуквенный код (например, USD, EUR)."
  }

  /** The reply to a conversion of one unit of `code` into hryvnias. */
  function Report(code: string, v: Verdict): string {
    match v
    case Converted(rate) => "1 " + code + " = " + rate.fixed2 + " UAH"
    case NoResult => "Не удалось получить результат конвертации для " + code + "."
    case Failed(reason) => "Не удалось получить курс для " + code + ". Причина: " + reason
  }

  /** The one conversion `/currency` asks for: a unit of `code` into hryvnias. */
  function UnitRequest(h: CurrencyHelper.Helper, code: string): Request {
    Request(h.baseUrl + "/convert", h.apiKey, ConvertQuery(Text.Upper(code), "UAH", Amount("1.0")))
  }

  /** `CurrencyStrategy.handle`. */
  function Handle(st: Strategy, text: string, net: Net, io: Io): (r: Effect<string>)
    ensures Extends(io, r.io)
    ensures st.helper.Failure? ==> r == Effect(InitFailure + st.helper.error, io)
    ensures st.helper.Success? ==> r == Answer(st.helper.value, Code(text), net, io)
  {
    ExtendsReflexive(io);
    match st.helper
    case Failure(e) => Effect(InitFailure + e, io)
    case Success(h) => Answer(h, Code(text), net, io)
  }

  /** The reply for a requested code: the code is validated first, and only a valid one
      is converted. */
  function Answer(h: CurrencyHelper.Helper, code: string, net: Net, io: Io): (r: Effect<string>)
    ensures Extends(io, r.io)
    ensures var check := CurrencyHelper.IsValidCurrency(h, code, net, io);
            && (!check.valid ==> r == Effect(NotFound(code), check.io))
            && (check.valid ==>
                  && r.io == Io(check.io.file, check.io.requests + [UnitRequest(h, code)])
                  && r.value == Report(code, Classify(net(UnitRequest(h, code), |check.io.requests|))))
  {
    var check := CurrencyHelper.IsValidCurrency(h, code, net, io);
    if !check.valid then Effect(NotFound(code), check.io)
    else
      var answer := CurrencyHelper.Convert(check.helper, code, "UAH", Amount("1.0"), net, check.io);
      assert Text.Upper("UAH") == "UAH";
      Effect(Report(code, Classify(answer.value)), answer.io)
  }

  // ---------------------------------------------------------------------------
  // Properties

  /** Every reply contains a space, so none can be taken for the shutdown marker. */
  lemma HandleSpaced(st: Strategy, text: string, net: Net, io: Io)
    ensures ' ' in Handle(st, text, net, io).value
  {
    var r := Handle(st, text, net, io).value;
    match st.helper
    case Failure(e) =>
      assert r[6] == ' ';
    case Success(h) =>
      AnswerSpaced(h, Code(text), net, io);
  }

  lemma AnswerSpaced(h: CurrencyHelper.Helper, code: string, net: Net, io: Io)
    ensures ' ' in Answer(h, code, net, io).value
  {
    var r := Answer(h, code, net, io).value;
    var check := CurrencyHelper.IsValidCurrency(h, code, net, io);
    if !check.valid {
      var x := "Не удалось найти валюту с кодом '" + code;
      assert r == x + "'. " + "Пожалуйста, используйте стандартный трехбуквенный код (например, USD, EUR).";
      assert r[|x| + 2] == ' ';
    } else {
      ReportSpaced(code, Classify(net(UnitRequest(h, code), |check.io.requests|)));
    }
  }

  lemma ReportSpaced(code: string, v: Verdict)
    ensures ' ' in Report(code, v)
  {
    var r := Report(code, v);
    match v
    case Converted(rate) =>
      var x := "1 " + code + " = " + rate.fixed2;
      assert r == x + " UAH";
      assert r[|x|] == ' ';
    case NoResult =>
      var l := "Не удалось получить результат конвертации для ";
      assert l[2] == ' ';
      assert r == l + (code + ".");
      assert r[2] == l[2];
    case Failed(reason) =>
      var x := "Не удалось получить курс для " + code;
      assert r == x + ". Причина: " + reason;
      assert r[|x| + 1] == ' ';
  }

  /** A conversion is requested exactly when the helper exists and the code is valid. */
  lemma ConvertsOnlyValidCodes(st: Strategy, text: string, net: Net, io: Io)
    ensures var r := Handle(st, text, net, io);
            NoConversion(io, r.io) <==>
              st.helper.Failure? || !CurrencyHelper.IsValidCurrency(st.helper.value, Code(text), net, io).valid
  {
    var r := Handle(st, text, net, io);
    if st.helper.Success? {
      var check := CurrencyHelper.IsValidCurrency(st.helper.value, Code(text), net, io);
      if check.valid {
        assert r.io.requests[|check.io.requests|].query.ConvertQuery?;
      }
    }
  }

  /** The message text matters only through the code it names. */
  lemma HandleDependsOnCode(st: Strategy, a: string, b: string, net: Net, io: Io)
    requires Code(a) == Code(b)
    ensures Handle(st, a, net, io) == Handle(st, b, net, io)
  {
  }

  lemma CodeOfBareCommand()
    ensures Code("/currency") == "USD"
  {
    Text.WordsOfJoin(["/currency"]);
    assert Text.Join(["/currency"], " ") == "/currency";
  }

  lemma CodeOfUsd()
    ensures Code("/currency USD") == "USD"
  {
    Text.WordsOfJoin(["/currency", "USD"]);
    assert Text.Join(["/currency", "USD"], " ") == "/currency USD";
    assert Text.Upper("USD") == "USD";
  }

  /** `/currency` is `/currency USD`. */
  lemma DefaultIsUsd(st: Strategy, net: Net, io: Io)
    ensures Handle(st, "/currency", net, io) == Handle(st, "/currency USD", net, io)
  {
    CodeOfBareCommand();
    CodeOfUsd();
    HandleDependsOnCode(st, "/currency", "/currency USD", net, io);
  }

  /** Only the second word matters: the command word and any words after the code are
      ignored, and the code is upper-cased. */
  lemma CodeIgnoresOtherWords(cmd: string, code: string, rest: seq<string>)
    requires Text.IsWordList([cmd, code] + rest)
    ensures Code(Text.Join([cmd, code] + rest, " ")) == Text.Upper(code)
  {
    Text.WordsOfJoin([cmd, code] + rest);
  }
}

=== FILE: command_currency1.dfy ===
/** `/currency1 <amount> <FROM> to <TO>`: converts an amount between two currencies
    after validating both codes. */
module CommandCurrency1 {
  import opened Wrappers
  import Text
  import Config
  import opened Api
  import CurrencyHelper
  import ConvertPattern
  import Numerals

  const InitFailure := "Ошибка инициализации команды: "
  const Usage := "Неверный формат команды. Используйте: "
                 + "`/currency1 <сумма> <ИЗ_ВАЛЮТЫ> to <В_ВАЛЮТУ>`\n"
                 + "Например: `/currency1 10 USD to EUR`"

  /** The state `Currency1Strategy.__init__` builds: a helper, or the construction error. */
  datatype Strategy = Strategy(helper: Result<CurrencyHelper.Helper, string>)

  /** The text the pattern is searched in: every `/currency1` removed, then stripped. */
  function Clean(text: string): (c: string)
    ensures c == "" || (!Text.IsSpace(c[0]) && !Text.IsSpace(c[|c| - 1]))
    ensures !Text.Contains(text, "/currency1") ==> c == Text.Strip(text)
  {
    assert !Text.Contains(text, "/currency1") ==> Text.ReplaceAll(text, "/currency1", "") == text by {
      if !Text.Contains(text, "/currency1") {
        Text.ReplaceAbsent(text, "/currency1", "");
      }
    }
    Text.Strip(Text.ReplaceAll(text, "/currency1", ""))
  }

  function UnknownSource(code: string): string {
    "Неизвестный код исходной валюты: " + code
  }

  function UnknownTarget(code: string): string {
    "Неизвестный код целевой валюты: " + code
  }

  /** The reply to a conversion; `show` renders the amount as `{amount:.2f}` does. */
  function Report(show: string -> string, g: ConvertPattern.Groups, from: string, to: string, v: Verdict): string {
    match v
    case Converted(rate) => show(g.amount) + " " + from + " = " + rate.fixed2 + " " + to
    case NoResult => "Не удалось получить результат конвертации для " + from + " -> " + to + "."
    case Failed(reason) => "Не удалось выполнить конвертацию. Причина: " + reason
  }

  /** `Currency1Strategy.handle`. */
  function Handle(st: Strategy, text: string, show: string -> string, net: Net, io: Io): (r: Effect<string>)
    ensures Extends(io, r.io)
    ensures st.helper.Failure? ==> r == Effect(InitFailure + st.helper.error, io)
    ensures st.helper.Success? && ConvertPattern.Search(Clean(text)).None? ==> r == Effect(Usage, io)
    ensures st.helper.Success? && ConvertPattern.Search(Clean(text)).Some? ==>
              r == Answer(st.helper.value, ConvertPattern.Search(Clean(text)).value, show, net, io)
  {
    ExtendsReflexive(io);
    match st.helper
    case Failure(e) => Effect(InitFailure + e, io)
    case Success(h) =>
      match ConvertPattern.Search(Clean(text))
      case None => Effect(Usage, io)
      case Some(g) => Answer(h, g, show, net, io)
  }

  /** The reply once the pattern matched: the source code is checked first, then the
      target code, and only then is the conversion requested. */
  function Answer(h: CurrencyHelper.Helper, g: ConvertPattern.Groups, show: string -> string,
                  net: Net, io: Io): (r: Effect<string>)
    ensures Extends(io, r.io)
    ensures var from := Text.Upper(g.source);
            var to := Text.Upper(g.target);
            var c1 := CurrencyHelper.IsValidCurrency(h, from, net, io);
            var c2 := CurrencyHelper.IsValidCurrency(c1.helper, to, net, c1.io);
            && (!c1.valid ==> r == Effect(UnknownSource(from), c1.io))
            && (c1.valid && !c2.valid ==> r == Effect(UnknownTarget(to), c2.io))
            && (c1.valid && c2.valid ==>
                  var req := Request(c2.helper.baseUrl + "/convert", c2.helper.apiKey,
                                     ConvertQuery(from, to, Amount(g.amount)));
                  && r.io == Io(c2.io.file, c2.io.requests + [req])
                  && r.value == Report(show, g, from, to, Classify(net(req, |c2.io.requests|))))
  {
    var from := Text.Upper(g.source);
    var to := Text.Upper(g.target);
    var c1 := CurrencyHelper.IsValidCurrency(h, from, net, io);
    if !c1.valid then Effect(UnknownSource(from), c1.io)
    else
      var c2 := CurrencyHelper.IsValidCurrency(c1.helper, to, net, c1.io);
      if !c2.valid then Effect(UnknownTarget(to), c2.io)
      else
        var answer := CurrencyHelper.Convert(c2.helper, from, to, Amount(g.amount), net, c2.io);
        Text.UpperIdempotent(g.source);
        Text.UpperIdempotent(g.target);
        Effect(Report(show, g, from, to, Classify(answer.value)), answer.io)
  }

  // ---------------------------------------------------------------------------
  // Properties

  /** Every reply contains a space, so none can be taken for the shutdown marker. */
  lemma HandleSpaced(st: Strategy, text: string, show: string -> string, net: Net, io: Io)
    ensures ' ' in Handle(st, text, show, net, io).value
  {
    var r := Handle(st, text, show, net, io).value;
    match st.helper
    case Failure(e) =>
      assert r[6] == ' ';
    case Success(h) =>
      match ConvertPattern.Search(Clean(text))
      case None =>
        assert r[8] == ' ';
      case Some(g) =>
        AnswerSpaced(h, g, show, net, io);
  }

  lemma AnswerSpaced(h: CurrencyHelper.Helper, g: ConvertPattern.Groups, show: string -> string, net: Net, io: Io)
    ensures ' ' in Answer(h, g, show, net, io).value
  {
    var r := Answer(h, g, show, net, io).value;
    var from := Text.Upper(g.source);
    var to := Text.Upper(g.target);
    var c1 := CurrencyHelper.IsValidCurrency(h, from, net, io);
    var c2 := CurrencyHelper.IsValidCurrency(c1.helper, to, net, c1.io);
    if !c1.valid || !c2.valid {
      assert r[11] == ' ';
    } else {
      var req := Request(c2.helper.baseUrl + "/convert", c2.helper.apiKey, ConvertQuery(from, to, Amount(g.amount)));
      ReportSpaced(show, g, from, to, Classify(net(req, |c2.io.requests|)));
    }
  }

  lemma ReportSpaced(show: string -> string, g: ConvertPattern.Groups, from: string, to: string, v: Verdict)
    ensures ' ' in Report(show, g, from, to, v)
  {
    var r := Report(show, g, from, to, v);
    match v
    case Converted(rate) =>
      var x := show(g.amount) + " " + from + " = " + rate.fixed2;
      assert r == x + " " + to;
      assert r[|x|] == ' ';
    case NoResult =>
      var z := "Не удалось получить результат конвертации для " + from + " -> ";
      assert r == z + to + ".";
      assert r[|z| - 1] == z[|z| - 1] == ' ';
    case Failed(_) =>
      assert r[2] == ' ';
  }

  /** A conversion is requested only once the pattern matched and both codes are valid;
      validation itself never converts. */
  lemma ConvertsOnlyAfterBothChecks(st: Strategy, text: string, show: string -> string, net: Net, io: Io)
    ensures var r := Handle(st, text, show, net, io);
            !NoConversion(io, r.io) ==>
              && st.helper.Success?
              && ConvertPattern.Search(Clean(text)).Some?
              && var g := ConvertPattern.Search(Clean(text)).value;
                 var c1 := CurrencyHelper.IsValidCurrency(st.helper.value, Text.Upper(g.source), net, io);
                 c1.valid && CurrencyHelper.IsValidCurrency(c1.helper, Text.Upper(g.target), net, c1.io).valid
  {
  }

  /** The source code is checked first: when it is unknown the reply names it and the
      target code plays no part. */
  lemma TargetIgnoredWhenSourceUnknown(h: CurrencyHelper.Helper, t1: string, t2: string,
                                       show: string -> string, net: Net, io: Io)
    requires ConvertPattern.Search(Clean(t1)).Some? && ConvertPattern.Search(Clean(t2)).Some?
    requires ConvertPattern.Search(Clean(t1)).value.source == ConvertPattern.Search(Clean(t2)).value.source
    requires !CurrencyHelper.IsValidCurrency(h, Text.Upper(ConvertPattern.Search(Clean(t1)).value.source), net, io).valid
    ensures Handle(Strategy(Success(h)), t1, show, net, io) == Handle(Strategy(Success(h)), t2, show, net, io)
    ensures Handle(Strategy(Success(h)), t1, show, net, io).value
            == UnknownSource(Text.Upper(ConvertPattern.Search(Clean(t1)).value.source))
  {
  }

  /** Removing `p` from `p`, a space and a trimmed text free of `p`, then stripping,
      leaves that text. */
  lemma RemovePrefixWord(p: string, t: string)
    requires p != "" && p[0] != ' '
    requires t == "" || (!Text.IsSpace(t[0]) && !Text.IsSpace(t[|t| - 1]))
    requires !Text.Contains(t, p)
    ensures Text.Strip(Text.ReplaceAll(p + [' '] + t, p, "")) == t
  {
    LeadingWordReplaced(p, t);
    SpaceStripped(t);
  }

  lemma LeadingWordReplaced(p: string, t: string)
    requires p != "" && p[0] != ' '
    requires !Text.Contains(t, p)
    ensures Text.ReplaceAll(p + [' '] + t, p, "") == [' '] + t
  {
    assert p + [' '] + t == p + ([' '] + t);
    Text.ReplaceLeading(p, [' '] + t, "");
    Text.ReplaceSkipsChar(' ', t, p, "");
    Text.ReplaceAbsent(t, p, "");
  }

  lemma SpaceStripped(t: string)
    requires t == "" || (!Text.IsSpace(t[0]) && !Text.IsSpace(t[|t| - 1]))
    ensures Text.Strip([' '] + t) == t
  {
    assert [' '] + t + "" == [' '] + t;
    Text.StripOfPadded([' '], t, "");
  }

  /** The command word and the space after it are removed before the search. */
  lemma CommandWordRemoved(t: string)
    requires t == "" || (!Text.IsSpace(t[0]) && !Text.IsSpace(t[|t| - 1]))
    requires !Text.Contains(t, "/currency1")
    ensures Clean("/currency1 " + t) == t
  {
    var p := "/currency1";
    assert "/currency1 " + t == p + [' '] + t by {
      assert "/currency1 " == p + [' '];
    }
    RemovePrefixWord(p, t);
  }

  /** The keyword cannot overlap itself, so an occurrence is removed wherever it stands,
      and the text on either side is cleaned independently. */
  lemma KeywordRemovedAnywhere(a: string, b: string)
    ensures Clean(a + "/currency1" + b)
            == Text.Strip(Text.ReplaceAll(a, "/currency1", "") + Text.ReplaceAll(b, "/currency1", ""))
    ensures !Text.Contains(a, "/currency1") && !Text.Contains(b, "/currency1") ==>
              Clean(a + "/currency1" + b) == Text.Strip(a + b)
  {
    var p := "/currency1";
    assert Text.HeadUnique(p);
    Text.ReplaceAroundOccurrence(a, p, b, "");
    assert Text.ReplaceAll(a, p, "") + "" == Text.ReplaceAll(a, p, "");
    if !Text.Contains(a, p) && !Text.Contains(b, p) {
      Text.ReplaceAbsent(a, p, "");
      Text.ReplaceAbsent(b, p, "");
    }
  }

  /** A request without any digit gets the usage hint, with nothing validated or
      converted. */
  lemma NoAmountGetsUsage(h: CurrencyHelper.Helper, t: string, show: string -> string, net: Net, io: Io)
    requires t == "" || (!Text.IsSpace(t[0]) && !Text.IsSpace(t[|t| - 1]))
    requires '/' !in t
    requires forall k :: 0 <= k < |t| ==> !Numerals.IsDigit(t[k])
    ensures Handle(Strategy(Success(h)), "/currency1 " + t, show, net, io) == Effect(Usage, io)
  {
    Text.ContainsNeedsChar(t, "/currency1", 0);
    CommandWordRemoved(t);
    ConvertPattern.NoDigitNoMatch(t);
  }
}

=== FILE: command_dev.dfy ===
/** `/dev`: developer sub-commands, open only to the ids listed in `ADMIN_IDS`. */
module CommandDev {
  import opened Wrappers
  import Text
  import Numerals

  const Denial := "⛔ У вас нет доступа к этой команде."
  const Unknown := "❓ Неизвестная подкоманда. " + "Используйте `/dev help` для справки."
  const HelpHeader := "🛠️ **Доступные команды разработчика:**\n"

  /** The sub-command table, in declaration order. */
  const SubCommands: seq<string> := ["get_ids", "help"]

  /** The admin ids denoted by a list of comma-separated tokens: each token made of digits
      only, converted to a number; every other token is dropped. */
  function DigitTokens(tokens: seq<string>): (ids: seq<int>)
    ensures |ids| <= |tokens|
    ensures forall k :: 0 <= k < |ids| ==> ids[k] >= 0
    ensures forall x :: x in ids <==>
              exists k :: 0 <= k < |tokens| && Numerals.IsDigits(tokens[k]) && Numerals.Value(tokens[k]) == x
    decreases |tokens|
  {
    if tokens == [] then []
    else
      var rest := DigitTokens(tokens[1..]);
      var ids := if Numerals.IsDigits(tokens[0]) then [Numerals.Value(tokens[0]) as int] + rest else rest;
      assert forall k :: 1 <= k < |tokens| ==> tokens[k] == tokens[1..][k - 1];
      ids
  }

  /** `DevStrategy.__init__`: the admin list parsed from `ADMIN_IDS`. */
  function ParseAdminIds(adminIds: string): (ids: seq<int>)
    ensures forall k :: 0 <= k < |ids| ==> ids[k] >= 0
  {
    DigitTokens(Text.Split(adminIds, ','))
  }

  /** The state `DevStrategy.__init__` builds. */
  datatype Strategy = Strategy(adminIds: seq<int>)

  function Init(adminIds: string): Strategy {
    Strategy(ParseAdminIds(adminIds))
  }

  /** The sub-command: the second word of the message, `get_ids` by default. */
  function SubCommand(text: string): (sub: string)
    ensures |Text.Words(text)| > 1 ==> sub == Text.Words(text)[1]
    ensures |Text.Words(text)| <= 1 ==> sub == "get_ids"
  {
    var parts := Text.Words(text);
    if |parts| > 1 then parts[1] else "get_ids"
  }

  /** The arguments: every word after the sub-command. */
  function Args(text: string): (args: seq<string>)
    ensures |Text.Words(text)| > 2 ==> Text.Words(text) == Text.Words(text)[..2] + args
    ensures |Text.Words(text)| <= 2 ==> args == []
  {
    var parts := Text.Words(text);
    if |parts| > 2 then parts[2..] else []
  }

  /** `_get_ids`. */
  function GetIds(chat: int, user: int): string {
    "🆔 **User ID:** `" + Numerals.IntToStr(user) + "`\n**Chat ID:** `" + Numerals.IntToStr(chat) + "`"
  }

  function HelpLine(cmd: string): string {
    "- `" + cmd + "`"
  }

  function HelpLines(cmds: seq<string>): (lines: seq<string>)
    ensures |lines| == |cmds|
    ensures forall k :: 0 <= k < |cmds| ==> lines[k] == HelpLine(cmds[k])
  {
    seq(|cmds|, k requires 0 <= k < |cmds| => HelpLine(cmds[k]))
  }

  /** `_show_help`: one line per registered sub-command, in table order. */
  function ShowHelp(): string {
    HelpHeader + Text.Join(HelpLines(SubCommands), "\n")
  }

  /** The text the `except` clause returns when a sub-command handler raises. */
  function HandlerError(sub: string, e: string): string {
    "❌ Произошла ошибка при выполнении команды `" + sub + "`: " + e
  }

  /** The selected sub-command handler run under the `try`; none of the three can raise
      once its keyword arguments are bound, so the result is always a `Success`. */
  function RunSubCommand(sub: string, chat: int, user: int, args: seq<string>): (r: Result<string, string>)
    ensures r.Success?
    ensures sub == "get_ids" ==> r.value == GetIds(chat, user)
    ensures sub == "help" ==> r.value == ShowHelp()
    ensures sub !in SubCommands ==> r.value == Unknown
  {
    if sub == "get_ids" then Success(GetIds(chat, user))
    else if sub == "help" then Success(ShowHelp())
    else Success(Unknown)
  }

  /** `DevStrategy.handle`. */
  function Handle(st: Strategy, text: string, chat: int, user: int): (r: string)
    ensures user !in st.adminIds ==> r == Denial
    ensures user in st.adminIds ==> r == RunSubCommand(SubCommand(text), chat, user, Args(text)).value
  {
    if user !in st.adminIds then Denial
    else
      var sub := SubCommand(text);
      match RunSubCommand(sub, chat, user, Args(text))
      case Success(reply) => reply
      case Failure(e) => HandlerError(sub, e)
  }

  // ---------------------------------------------------------------------------
  // Properties

  /** Round trip: a list of ids written as `str(id)` joined by commas parses back to
      the same list. */
  lemma {:induction false} ParseAdminIdsOfJoin(ids: seq<nat>)
    requires |ids| > 0
    ensures ParseAdminIds(Text.Join(NatStrings(ids), ",")) == ids
    decreases |ids|
  {
    var parts := NatStrings(ids);
    Text.SplitOfJoin(parts, ',');
    DigitTokensOfNumerals(ids);
  }

  function NatStrings(ids: seq<nat>): (parts: seq<string>)
    ensures |parts| == |ids|
    ensures forall k :: 0 <= k < |ids| ==> parts[k] == Numerals.NatToStr(ids[k])
    ensures forall k :: 0 <= k < |ids| ==> ',' !in parts[k]
  {
    seq(|ids|, k requires 0 <= k < |ids| => Numerals.NatToStr(ids[k]))
  }

  lemma {:induction false} DigitTokensOfNumerals(ids: seq<nat>)
    ensures DigitTokens(NatStrings(ids)) == ids
    decreases |ids|
  {
    if ids != [] {
      assert NatStrings(ids)[1..] == NatStrings(ids[1..]);
      DigitTokensOfNumerals(ids[1..]);
      assert [ids[0]] + ids[1..] == ids;
    }
  }

  /** A token with a space next to the comma is not `isdigit()`, so it is dropped. */
  lemma SpacedListDropsIds()
    ensures ParseAdminIds("1, 2") == [1]
  {
    var tokens := ["1", " 2"];
    Text.SplitOfJoin(tokens, ',');
    assert Text.Join(tokens, ",") == "1, 2";
    assert " 2"[0] == ' ' && !Numerals.IsDigit(' ');
    assert Numerals.Value("1") == 1;
  }

  /** A listed developer gets a non-denial reply; anyone else gets the denial. */
  lemma DenialIffUnlisted(st: Strategy, text: string, chat: int, user: int)
    ensures Handle(st, text, chat, user) == Denial <==> user !in st.adminIds
  {
    if user in st.adminIds {
      var r := Handle(st, text, chat, user);
      assert Denial[0] == '⛔';
      assert r[0] != Denial[0] by {
        var sub := SubCommand(text);
        if sub == "get_ids" {
          assert r[0] == '🆔';
        } else if sub == "help" {
          assert r[0] == '🛠';
        } else {
          assert sub !in SubCommands;
          assert r == Unknown;
          assert Unknown[0] == '❓';
        }
      }
    }
  }

  /** `/dev` alone is `/dev get_ids`. */
  lemma DefaultIsGetIds(st: Strategy, chat: int, user: int)
    requires user in st.adminIds
    ensures Handle(st, "/dev", chat, user) == Handle(st, "/dev get_ids", chat, user) == GetIds(chat, user)
  {
    BareWords();
    GetIdsWords();
  }

  lemma BareWords()
    ensures Text.Words("/dev") == ["/dev"]
  {
    Text.WordsOfJoin(["/dev"]);
  }

  lemma GetIdsWords()
    ensures Text.Words("/dev get_ids") == ["/dev", "get_ids"]
  {
    Text.WordsOfJoin(["/dev", "get_ids"]);
    assert Text.Join(["/dev", "get_ids"], " ") == "/dev get_ids";
  }

  /** The `get_ids` reply carries both ids. */
  lemma GetIdsCarriesIds(chat: int, user: int)
    ensures Text.Contains(GetIds(chat, user), Numerals.IntToStr(user))
    ensures Text.Contains(GetIds(chat, user), Numerals.IntToStr(chat))
  {
    var u := Numerals.IntToStr(user);
    var c := Numerals.IntToStr(chat);
    var p := "🆔 **User ID:** `";
    var q := "`\n**Chat ID:** `";
    var s := GetIds(chat, user);
    assert s == p + u + q + c + "`";
    assert s[|p|..|p| + |u|] == u;
    Text.ContainsAt(s, u, |p|);
    var i := |p| + |u| + |q|;
    assert s[i..i + |c|] == c;
    Text.ContainsAt(s, c, i);
  }

  /** The help reply lists the sub-commands, one per line, in table order. */
  lemma HelpListsSubCommands()
    ensures Text.Split(ShowHelp(), '\n') == ["🛠️ **Доступные команды разработчика:**", "- `get_ids`", "- `help`"]
  {
    var lines := ["🛠️ **Доступные команды разработчика:**", "- `get_ids`", "- `help`"];
    ShowHelpJoins();
    LinesOneLine(lines);
    Text.SplitOfJoin(lines, '\n');
  }

  lemma ShowHelpJoins()
    ensures ShowHelp() == Text.Join(["🛠️ **Доступные команды разработчика:**", "- `get_ids`", "- `help`"], "\n")
  {
    assert HelpLine("get_ids") == "- `get_ids`" && HelpLine("help") == "- `help`";
    assert HelpLines(SubCommands) == ["- `get_ids`", "- `help`"];
    assert Text.Join(HelpLines(SubCommands), "\n") == "- `get_ids`" + "\n" + "- `help`";
  }

  lemma LinesOneLine(lines: seq<string>)
    requires lines == ["🛠️ **Доступные команды разработчика:**", "- `get_ids`", "- `help`"]
    ensures forall k :: 0 <= k < |lines| ==> '\n' !in lines[k]
  {
    assert '\n' !in lines[0] && '\n' !in lines[1] && '\n' !in lines[2];
  }
}

=== FILE: command_table.dfy ===
/** The command keyword table of the factory and the docstrings of the command classes
    it names. */
module CommandTable {
  import opened Wrappers
  import Text

  /** The command classes the table maps to. */
  datatype CommandKind = HelpMenu | Shutdown | Currency | Dev | Currency1

  /** `CommandFactory.commands_map`, in declaration order. */
  const CommandsMap: seq<(string, CommandKind)> := [
    ("/help", HelpMenu),
    ("/shutdown", Shutdown),
    ("/currency", Currency),
    ("/dev", Dev),
    ("/currency1", Currency1)
  ]

  /** The keys of a table, in its order. */
  function Keys(table: seq<(string, CommandKind)>): (ks: seq<string>)
    ensures |ks| == |table|
    ensures forall i :: 0 <= i < |table| ==> ks[i] == table[i].0
  {
    seq(|table|, i requires 0 <= i < |table| => table[i].0)
  }

  /** No key occurs twice. */
  predicate UniqueKeys(table: seq<(string, CommandKind)>) {
    forall i, j :: 0 <= i < j < |table| ==> table[i].0 != table[j].0
  }

  /** The class a table maps `name` to (`dict.get`). */
  function Find(table: seq<(string, CommandKind)>, name: string): (r: Option<CommandKind>)
    ensures r.None? <==> name !in Keys(table)
    ensures r.Some? ==> (name, r.value) in table
    decreases |table|
  {
    if table == [] then None
    else if table[0].0 == name then Some(table[0].1)
    else
      var r := Find(table[1..], name);
      assert Keys(table) == [table[0].0] + Keys(table[1..]);
      r
  }

  /** With unique keys, the entry found is the only one for that key. */
  lemma FindUnique(table: seq<(string, CommandKind)>, name: string, kind: CommandKind)
    requires UniqueKeys(table)
    requires (name, kind) in table
    ensures Find(table, name) == Some(kind)
  {
    var i :| 0 <= i < |table| && table[i] == (name, kind);
    var j :| 0 <= j < |table| && table[j] == (name, Find(table, name).value);
    assert i == j;
  }

  lemma CommandsMapUnique()
    ensures UniqueKeys(CommandsMap)
  {
  }

  /** The table holds exactly the five command keywords. */
  lemma CommandsMapKeys()
    ensures Keys(CommandsMap) == ["/help", "/shutdown", "/currency", "/dev", "/currency1"]
  {
  }

  /** `command_name.split(' ')[0]`: the name up to its first space. */
  function BaseCommand(name: string): (b: string)
    ensures ' ' !in b
    ensures Text.StartsWith(name, b)
    ensures |b| == |name| || name[|b|] == ' '
  {
    var parts := Text.Split(name, ' ');
    Text.SplitPrefix(name, ' ');
    parts[0]
  }

  /** The class the factory chooses for a name, when it chooses one. */
  function Lookup(name: string): (r: Option<CommandKind>)
    ensures r.None? <==> BaseCommand(name) !in Keys(CommandsMap)
    ensures r.Some? ==> (BaseCommand(name), r.value) in CommandsMap
  {
    Find(CommandsMap, BaseCommand(name))
  }

  /** A class's docstring (`__doc__`, which Python does not inherit). */
  function Doc(kind: CommandKind): Option<string> {
    match kind
    case HelpMenu => None
    case Shutdown => Some("(Только для администратора) Безопасно завершает работу бота.")
    case Currency => Some("\n    Класс команды /currency.\n    "
                          + "Эта структура полностью соответствует другим командам в проекте.\n    ")
    case Dev => None
    case Currency1 => Some("\n    Класс команды /currency1.\n    ")
  }

  // ---------------------------------------------------------------------------
  // Properties

  /** Only the text before the first space selects the class. */
  lemma TextAfterSpaceIgnored(w: string, rest: string)
    requires ' ' !in w
    ensures Lookup(w + " " + rest) == Lookup(w)
  {
    Text.SplitAfterPiece(w, ' ', rest);
    Text.SplitPiece(w, ' ');
  }

  /** Only `' '` separates: a keyword followed by a tab is not a keyword. */
  lemma TabIsNotSeparator(w: string, rest: string)
    requires ' ' !in w && ' ' !in rest
    ensures BaseCommand(w + "\t" + rest) == w + "\t" + rest
  {
    Text.SplitPiece(w + "\t" + rest, ' ');
  }

  /** The keywords are case-sensitive. */
  lemma UpperCaseUnknown()
    ensures Lookup("/HELP") == None
    ensures Lookup("/help") == Some(HelpMenu)
  {
    Text.SplitPiece("/HELP", ' ');
    Text.SplitPiece("/help", ' ');
  }
}

=== FILE: config.dfy ===
/** The process environment the core reads, as configured strings. */
module Config {
  import opened Wrappers

  /** The environment variables the modelled code consults. */
  datatype Env = Env(
    adminId: Option<string>,    // ADMIN_ID
    adminIds: string,           // ADMIN_IDS, the comma-separated developer list ("" when unset)
    apiUrl: Option<string>,     // CURRENCY_API_URL
    apiKey: Option<string>)     // CURRENCY_API_KEY

  /** `ADMIN_ID` as bot/config.py exposes it: `os.getenv("ADMIN_ID", "")`. */
  function ConfiguredAdminId(env: Env): (s: string)
    ensures env.adminId.None? ==> s == ""
    ensures env.adminId.Some? ==> s == env.adminId.value
  {
    env.adminId.GetOr("")
  }

  /** Truthiness of `os.getenv(name)`: set and non-empty. */
  predicate IsSet(v: Option<string>) {
    v.Some? && v.value != ""
  }
}

=== FILE: core.dfy ===
/** The bot itself: `handle_message` (authorisation, the handler chain, the factory) and
    the long-polling loop of `run`, which answers the newest update of each poll when its
    id differs from the last one handled, and stops when `handle_message` returns the
    shutdown marker. Telegram is an oracle: `poll(i)` is the latest update the i-th
    `getUpdates` returns; the earlier entries of that answer are never seen.
    The module composes the corrected readings: `Decorators.LoadAdminId` for the
    administrator id and, through `Factories.Execute`, `HelpMenu.Handle` for `/help`. As
    written, `require_auth` raises on every call (`Decorators.AsWrittenAlwaysRaises`), so
    the first text update dispatched ends `run()`. */
module Core {
  import opened Wrappers
  import Text
  import Numerals
  import Config
  import opened Api
  import opened Base
  import Handlers
  import Decorators
  import CommandTable
  import Factories
  import Shutdown

  const Farewell := "Бот вимикається…"

  /** A Telegram message: its chat, its sender and, for text messages, its text. */
  datatype Message = Message(chat: int, user: int, text: Option<string>)

  /** An update: its id and, when it carries one, a message. */
  datatype Update = Update(updateId: int, message: Option<Message>)

  /** Everything outside the bot: the environment, the role service, the rendering of
      amounts, the currency API, Telegram, and the cache file at start-up. */
  datatype World = World(
    env: Config.Env,
    check: Decorators.AccessCheck,
    show: string -> string,
    net: Net,
    poll: nat -> Option<Update>,
    cache: CacheFile)

  /** One `sendMessage` call. */
  datatype Send = Send(chat: int, text: Reply)

  /** Whether the loop still runs, left through `sys.exit(0)`, or died of an exception. */
  datatype Status = Running | Stopped | Crashed(error: ErrorKind)

  /** The loop's state: `last_update_id`, the effects on the currency API and the cache
      file, and the messages sent so far. */
  datatype Bot = Bot(status: Status, lastId: Option<int>, io: Io, sent: seq<Send>)

  /** The body of `handle_message`, inside the decorators. */
  function Dispatch(w: World, text: string, chat: int, user: int, io: Io): (r: Effect<Outcome>)
    ensures Extends(io, r.io)
    ensures Text.Contains(text, Handlers.BadWord) ==> r == Effect(Returned(Some(Handlers.Blocked)), io)
    ensures !Text.Contains(text, Handlers.BadWord) && Text.Words(text) == [] ==> r == Effect(Raised(IndexError), io)
    ensures !Text.Contains(text, Handlers.BadWord) && Text.Words(text) != [] ==>
              var name := Text.Words(text)[0];
              && (name !in CommandTable.Keys(CommandTable.CommandsMap) ==>
                    r == Effect(Returned(Some(Factories.UnknownCommand)), io))
              && (name in CommandTable.Keys(CommandTable.CommandsMap) ==>
                    var cmd := Factories.Construct(CommandTable.Lookup(name).value, w.env, io.file);
                    r == Factories.Execute(cmd, w.env, text, chat, user, w.show, w.net, io))
  {
    Handlers.ChainVerdict(text);
    ExtendsReflexive(io);
    var verdict := Handlers.Handle(Handlers.BuildHandlerChain(), text);
    if Truthy(verdict) then Effect(Returned(verdict), io)
    else
      var words := Text.Words(text);
      if words == [] then Effect(Raised(IndexError), io)
      else
        Factories.WordSelectsItself(w.env, io.file, words[0]);
        match Factories.CreateCommand(w.env, io.file, words[0])
        case None => Effect(Returned(Some(Factories.UnknownCommand)), io)
        case Some(cmd) => Factories.Execute(cmd, w.env, text, chat, user, w.show, w.net, io)
  }

  /** `handle_message` with its decorators: `require_auth` around the body (`log_command`
      adds nothing). */
  function HandleMessage(w: World, text: string, chat: int, user: int, io: Io): (r: Effect<Outcome>)
    ensures Extends(io, r.io)
    ensures Decorators.LoadAdminId(w.env.adminId).Failure? ==> r == Effect(Raised(ValueError), io)
    ensures Decorators.LoadAdminId(w.env.adminId).Success? ==>
              var admin := Decorators.LoadAdminId(w.env.adminId).value;
              var access := Decorators.Decide(admin, w.check, text, user);
              && (access.Granted? ==> r == Dispatch(w, text, chat, user, io))
              && (access.Refused? ==> r == Effect(Returned(access.reply), io))
  {
    ExtendsReflexive(io);
    Decorators.RequireAuth(Decorators.LoadAdminId(w.env.adminId), w.check, text, user,
                           io' => Dispatch(w, text, chat, user, io'), io)
  }

  /** The state after the first `get_last_update`: that update's id is taken as already
      handled. */
  function Start(w: World): (b: Bot)
    ensures b.status == Running && b.io == Io(w.cache, []) && b.sent == []
    ensures w.poll(0).None? ==> b.lastId.None?
    ensures w.poll(0).Some? ==> b.lastId == Some(w.poll(0).value.updateId)
  {
    var lastId := match w.poll(0) case None => None case Some(u) => Some(u.updateId);
    Bot(Running, lastId, Io(w.cache, []), [])
  }

  /** An update arrived, and its id differs from the last one handled. */
  predicate IsNew(b: Bot, u: Option<Update>) {
    u.Some? && Some(u.value.updateId) != b.lastId
  }

  /** The update holds a message with a text (`"message" in update and "text" in ...`). */
  predicate HasText(u: Update) {
    u.message.Some? && u.message.value.text.Some?
  }

  /** One turn of the `while True` loop, given what `get_last_update` returned. */
  function Step(w: World, b: Bot, u: Option<Update>): (r: Bot)
    ensures !b.status.Running? || !IsNew(b, u) ==> r == b
    ensures b.status.Running? && IsNew(b, u) && !HasText(u.value) ==> r == b.(lastId := Some(u.value.updateId))
    ensures Extends(b.io, r.io)
    ensures |b.sent| <= |r.sent| <= |b.sent| + 1 && r.sent[..|b.sent|] == b.sent
    ensures forall k :: |b.sent| <= k < |r.sent| ==> r.sent[k].text != Some(Shutdown.Sentinel)
    ensures r.status.Running? && r != b ==> r.lastId == Some(u.value.updateId)
    ensures b.status.Running? && r.status == Stopped ==> r.sent == b.sent + [Send(u.value.message.value.chat, Some(Farewell))]
    ensures b.status.Running? && IsNew(b, u) && HasText(u.value) ==>
              |r.sent| == |b.sent| + (if r.status.Crashed? then 0 else 1)
    ensures b.status.Running? && IsNew(b, u) && HasText(u.value) ==>
              var m := u.value.message.value;
              var e := HandleMessage(w, m.text.value, m.chat, m.user, b.io);
              && (e.value.Raised? ==> r == Bot(Crashed(e.value.error), b.lastId, e.io, b.sent))
              && (e.value == Returned(Some(Shutdown.Sentinel)) ==>
                    r == Bot(Stopped, b.lastId, e.io, b.sent + [Send(m.chat, Some(Farewell))]))
              && (e.value.Returned? && e.value.reply != Some(Shutdown.Sentinel) ==>
                    r == Bot(Running, Some(u.value.updateId), e.io, b.sent + [Send(m.chat, e.value.reply)]))
  {
    ExtendsReflexive(b.io);
    assert Farewell[0] != Shutdown.Sentinel[0];
    if !b.status.Running? || !IsNew(b, u) then b
    else
      var id := u.value.updateId;
      if !HasText(u.value) then b.(lastId := Some(id))
      else
        var Message(chat, user, text) := u.value.message.value;
        var e := HandleMessage(w, text.value, chat, user, b.io);
        match e.value
        case Raised(err) => Bot(Crashed(err), b.lastId, e.io, b.sent)
        case Returned(reply) =>
          if reply == Some(Shutdown.Sentinel) then Bot(Stopped, b.lastId, e.io, b.sent + [Send(chat, Some(Farewell))])
          else Bot(Running, Some(id), e.io, b.sent + [Send(chat, reply)])
  }

  /** The state after `n` turns of the loop. */
  function Run(w: World, n: nat): (b: Bot)
    decreases n
  {
    if n == 0 then Start(w) else Step(w, Run(w, n - 1), w.poll(n))
  }

  // ---------------------------------------------------------------------------
  // Properties of one message

  /** `/shutdown` is the only keyword of the shutdown class. */
  lemma ShutdownKeyword(name: string)
    requires (name, CommandTable.Shutdown) in CommandTable.CommandsMap
    ensures name == "/shutdown"
  {
  }

  /** The keyword `/shutdown` selects the shutdown class. */
  lemma ShutdownSelected()
    ensures "/shutdown" in CommandTable.Keys(CommandTable.CommandsMap)
    ensures CommandTable.Lookup("/shutdown") == Some(CommandTable.Shutdown)
  {
    CommandTable.CommandsMapKeys();
    CommandTable.CommandsMapUnique();
    Text.SplitPiece("/shutdown", ' ');
    CommandTable.FindUnique(CommandTable.CommandsMap, "/shutdown", CommandTable.Shutdown);
  }

  /** The configured administrator, written as `str(id)`, stops the bot with any
      message whose first word is `/shutdown`. */
  lemma AdminShutsDown(w: World, n: int, text: string, chat: int, io: Io)
    requires w.env.adminId == Some(Numerals.IntToStr(n))
    requires !Text.Contains(text, Handlers.BadWord) && Text.Words(text) != [] && Text.Words(text)[0] == "/shutdown"
    ensures HandleMessage(w, text, chat, n, io) == Effect(Returned(Some(Shutdown.Sentinel)), io)
  {
    Decorators.LoadsDecimalId(n);
    ShutdownSelected();
  }

  /** An `ADMIN_ID` with a leading space passes `int()`, so the administrator is let
      through, but `str(user_id)` never equals it, so `/shutdown` refuses. */
  lemma PaddedAdminCannotShutDown(w: World, n: int, text: string, chat: int, io: Io)
    requires w.env.adminId == Some(" " + Numerals.IntToStr(n))
    requires !Text.Contains(text, Handlers.BadWord) && Text.Words(text) != [] && Text.Words(text)[0] == "/shutdown"
    ensures HandleMessage(w, text, chat, n, io) == Effect(Returned(Some(Shutdown.Denial)), io)
  {
    assert Text.AllSpace(" ") && Text.AllSpace("");
    Decorators.LoadsPaddedId(" ", n, "");
    assert " " + Numerals.IntToStr(n) + "" == " " + Numerals.IntToStr(n);
    ShutdownSelected();
    Shutdown.PaddedAdminLocksOut(" " + Numerals.IntToStr(n), text, chat, n);
  }

  /** The marker comes only from the shutdown command run by the administrator (unless
      the role service itself answers with it). */
  lemma SentinelNeedsAdmin(w: World, text: string, chat: int, user: int, io: Io)
    requires forall t, u :: w.check(t, u) != Decorators.Refused(Some(Shutdown.Sentinel))
    requires HandleMessage(w, text, chat, user, io).value == Returned(Some(Shutdown.Sentinel))
    ensures Decorators.LoadAdminId(w.env.adminId).Success?
    ensures !Text.Contains(text, Handlers.BadWord)
    ensures Text.Words(text) != [] && Text.Words(text)[0] == "/shutdown"
    ensures Numerals.IntToStr(user) == Config.ConfiguredAdminId(w.env)
  {
    var admin := Decorators.LoadAdminId(w.env.adminId);
    assert admin.Success? && Decorators.Decide(admin.value, w.check, text, user).Granted?;
    DispatchSentinel(w, text, chat, user, io);
  }

  /** Past the decorator, only the administrator's `/shutdown` yields the marker. */
  lemma DispatchSentinel(w: World, text: string, chat: int, user: int, io: Io)
    requires Dispatch(w, text, chat, user, io).value == Returned(Some(Shutdown.Sentinel))
    ensures !Text.Contains(text, Handlers.BadWord)
    ensures Text.Words(text) != [] && Text.Words(text)[0] == "/shutdown"
    ensures Numerals.IntToStr(user) == Config.ConfiguredAdminId(w.env)
  {
    assert Handlers.Blocked[0] != Shutdown.Sentinel[0];
    assert Factories.UnknownCommand[0] != Shutdown.Sentinel[0];
    var name := Text.Words(text)[0];
    var kind := CommandTable.Lookup(name).value;
    ShutdownKeyword(name);
  }

  /** A text of whitespace only has no first word: a granted sender crashes the bot. */
  lemma BlankTextRaises(w: World, text: string, chat: int, user: int, io: Io)
    requires Text.AllSpace(text)
    ensures Dispatch(w, text, chat, user, io) == Effect(Raised(IndexError), io)
  {
    Text.ContainsNeedsChar(text, Handlers.BadWord, 0);
    Text.WordsAfterSpaces(text, "");
    assert text + "" == text;
  }

  // ---------------------------------------------------------------------------
  // Properties of the loop

  /** The marker itself is never sent to a chat. */
  lemma {:induction false} SentinelNeverSent(w: World, n: nat)
    ensures forall k :: 0 <= k < |Run(w, n).sent| ==> Run(w, n).sent[k].text != Some(Shutdown.Sentinel)
    decreases n
  {
    if n > 0 {
      SentinelNeverSent(w, n - 1);
      var b := Run(w, n - 1);
      var r := Run(w, n);
      forall k | 0 <= k < |b.sent|
        ensures r.sent[k].text != Some(Shutdown.Sentinel)
      {
        assert r.sent[k] == r.sent[..|b.sent|][k];
      }
    }
  }

  /** At most one message is sent per turn. */
  lemma {:induction false} RepliesBounded(w: World, n: nat)
    ensures |Run(w, n).sent| <= n
    decreases n
  {
    if n > 0 {
      RepliesBounded(w, n - 1);
    }
  }

  /** Once the loop has stopped or crashed, nothing changes any more. */
  lemma {:induction false} HaltedStaysHalted(w: World, n: nat, m: nat)
    requires n <= m && !Run(w, n).status.Running?
    ensures Run(w, m) == Run(w, n)
    decreases m - n
  {
    if n < m {
      HaltedStaysHalted(w, n, m - 1);
    }
  }

  /** Messages are only ever appended: a later state's log extends an earlier one's. */
  lemma {:induction false} SentGrows(w: World, n: nat, m: nat)
    requires n <= m
    ensures |Run(w, n).sent| <= |Run(w, m).sent|
    ensures Run(w, m).sent[..|Run(w, n).sent|] == Run(w, n).sent
    decreases m - n
  {
    if n < m {
      SentGrows(w, n, m - 1);
      TurnAppends(w, m);
      PrefixOfPrefix(Run(w, n).sent, Run(w, m - 1).sent, Run(w, m).sent);
    }
  }

  lemma TurnAppends(w: World, m: nat)
    requires m > 0
    ensures |Run(w, m - 1).sent| <= |Run(w, m).sent|
    ensures Run(w, m).sent[..|Run(w, m - 1).sent|] == Run(w, m - 1).sent
  {
    var b := Run(w, m - 1);
    var r := Step(w, b, w.poll(m));
    assert Run(w, m) == r;
  }

  lemma PrefixOfPrefix<T>(a: seq<T>, b: seq<T>, c: seq<T>)
    requires |a| <= |b| <= |c| && b[..|a|] == a && c[..|b|] == b
    ensures c[..|a|] == a
  {
    assert c[..|a|] == c[..|b|][..|a|];
  }

  /** The update that was the latest at start-up is never answered, however often
      `getUpdates` returns it again. */
  lemma {:induction false} SeedNeverAnswered(w: World, n: nat)
    requires w.poll(0).Some?
    requires forall i :: 0 < i <= n ==> w.poll(i) == w.poll(0)
    ensures Run(w, n) == Start(w)
    decreases n
  {
    if n > 0 {
      SeedNeverAnswered(w, n - 1);
    }
  }

  /** The administrator's `/shutdown` ends the loop with the farewell sent to that chat. */
  lemma ShutdownStops(w: World, b: Bot, u: Update, n: int)
    requires b.status.Running? && Some(u.updateId) != b.lastId
    requires u.message.Some? && u.message.value.user == n && u.message.value.text.Some?
    requires w.env.adminId == Some(Numerals.IntToStr(n))
    requires var text := u.message.value.text.value;
             !Text.Contains(text, Handlers.BadWord) && Text.Words(text) != [] && Text.Words(text)[0] == "/shutdown"
    ensures Step(w, b, Some(u)).status == Stopped
    ensures Step(w, b, Some(u)).sent == b.sent + [Send(u.message.value.chat, Some(Farewell))]
  {
    AdminShutsDown(w, n, u.message.value.text.value, u.message.value.chat, b.io);
  }

  /** The id of the latest update among the first `n + 1` fetches, if any arrived. */
  function LatestId(w: World, n: nat): Option<int>
    decreases n
  {
    match w.poll(n)
    case Some(u) => Some(u.updateId)
    case None => if n == 0 then None else LatestId(w, n - 1)
  }

  /** Turn `n + 1` calls `handle_message`. */
  predicate Dispatches(w: World, n: nat) {
    var b := Run(w, n);
    b.status.Running? && IsNew(b, w.poll(n + 1)) && HasText(w.poll(n + 1).value)
  }

  /** The number of `handle_message` calls in the first `n` turns. */
  function DispatchCount(w: World, n: nat): nat
    decreases n
  {
    if n == 0 then 0 else DispatchCount(w, n - 1) + (if Dispatches(w, n - 1) then 1 else 0)
  }

  /** While the loop runs, `last_update_id` is the id of the latest update fetched at all,
      whether or not it carried a text. */
  lemma {:induction false} LastIdIsLatest(w: World, n: nat)
    requires Run(w, n).status.Running?
    ensures Run(w, n).lastId == LatestId(w, n)
    decreases n
  {
    if n > 0 {
      assert Run(w, n - 1).status.Running?;
      LastIdIsLatest(w, n - 1);
    }
  }

  /** Novelty is judged only against the latest fetched id: a running loop dispatches the
      next update exactly when it carries a text and its id differs from that one. */
  lemma NoveltyAgainstLatest(w: World, n: nat)
    requires Run(w, n).status.Running?
    ensures Dispatches(w, n) <==>
              && w.poll(n + 1).Some?
              && HasText(w.poll(n + 1).value)
              && Some(w.poll(n + 1).value.updateId) != LatestId(w, n)
  {
    LastIdIsLatest(w, n);
  }

  /** Every dispatched message is answered by exactly one `sendMessage`, the farewell
      included, except the one whose handling raised. */
  lemma {:induction false} SentCountsDispatches(w: World, n: nat)
    ensures |Run(w, n).sent| + (if Run(w, n).status.Crashed? then 1 else 0) == DispatchCount(w, n)
    decreases n
  {
    if n > 0 {
      SentCountsDispatches(w, n - 1);
    }
  }
}

=== FILE: currency_helper.dfy ===
/** The currency API client: construction from the environment, the `currency.json`
    cache of known currency codes, validation of a code against it, and conversion
    requests. Network answers come from a `Net` oracle and every request issued is
    recorded in the threaded `Io`. */
module CurrencyHelper {
  import opened Wrappers
  import Text
  import Config
  import opened Api

  const MissingSettings := "Переменные CURRENCY_API_URL и CURRENCY_API_KEY должны быть установлены в .env файле"

  /** A constructed helper: its settings and the currency map it holds. */
  datatype Helper = Helper(baseUrl: string, apiKey: string, currencies: map<string, string>)

  /** The currency map a cache file yields: its `currencies` entry, or nothing when the
      file is missing or fails to parse as JSON. A file that is not UTF-8, JSON that is not
      an object, or a file that cannot be opened for another reason raises in the source and
      has no `CacheFile` value here. */
  function LoadCache(file: CacheFile): (m: map<string, string>)
    ensures file.Missing? || file.Malformed? ==> m == map[]
    ensures file.Document? && file.currencies.None? ==> m == map[]
    ensures file.Document? && file.currencies.Some? ==> m == file.currencies.value
  {
    match file
    case Document(Some(c)) => c
    case _ => map[]
  }

  /** The helper's map is what the cache file currently says. */
  predicate Coherent(h: Helper, file: CacheFile) {
    h.currencies == LoadCache(file)
  }

  /** Construction: both API settings must be set and non-empty. */
  function New(env: Config.Env, file: CacheFile): (r: Result<Helper, string>)
    ensures r.Failure? <==> !Config.IsSet(env.apiUrl) || !Config.IsSet(env.apiKey)
    ensures r.Failure? ==> r.error == MissingSettings
    ensures r.Success? ==> r.value.baseUrl == env.apiUrl.value && r.value.apiKey == env.apiKey.value
    ensures r.Success? ==> Coherent(r.value, file)
  {
    if !Config.IsSet(env.apiUrl) || !Config.IsSet(env.apiKey) then Failure(MissingSettings)
    else Success(Helper(env.apiUrl.value, env.apiKey.value, LoadCache(file)))
  }

  /** `_make_request`: a GET of `base_url/endpoint` that always carries the API key. The
      oracle answers it; a raised request exception is a `None` answer. */
  function MakeRequest(h: Helper, endpoint: string, query: Query, net: Net, io: Io): (r: Effect<Response>)
    ensures r.io.file == io.file
    ensures |r.io.requests| == |io.requests| + 1 && r.io.requests[..|io.requests|] == io.requests
    ensures var req := r.io.requests[|io.requests|];
            req.url == h.baseUrl + "/" + endpoint && req.accessKey == h.apiKey && req.query == query
    ensures r.value == net(r.io.requests[|io.requests|], |io.requests|)
  {
    var req := Request(h.baseUrl + "/" + endpoint, h.apiKey, query);
    Effect(net(req, |io.requests|), Io(io.file, io.requests + [req]))
  }

  /** The outcome of `update_currencies_cache`: its boolean result, the helper afterwards
      and the effects. */
  datatype Refresh = Refresh(ok: bool, helper: Helper, io: Io)

  /** `update_currencies_cache`: ask the `list` endpoint; on a successful answer write it
      to the cache file and adopt its currencies, otherwise change nothing. */
  function UpdateCache(h: Helper, net: Net, io: Io): (r: Refresh)
    ensures Extends(io, r.io) && |r.io.requests| == |io.requests| + 1
    ensures r.io.requests[|io.requests|] == Request(h.baseUrl + "/list", h.apiKey, ListQuery)
    ensures var answer := net(r.io.requests[|io.requests|], |io.requests|);
            && (r.ok <==> Succeeded(answer))
            && (r.ok ==> r.helper.currencies == answer.value.currencies.GetOr(map[])
                         && r.io.file == Document(answer.value.currencies))
            && (!r.ok ==> r.helper == h && r.io.file == io.file)
    ensures r.helper.baseUrl == h.baseUrl && r.helper.apiKey == h.apiKey
  {
    var answer := MakeRequest(h, "list", ListQuery, net, io);
    if Succeeded(answer.value) then
      var c := answer.value.value.currencies;
      Refresh(true, h.(currencies := c.GetOr(map[])), Io(Document(c), answer.io.requests))
    else Refresh(false, h, answer.io)
  }

  /** The outcome of `is_valid_currency`: its answer, the helper afterwards and the effects. */
  datatype Check = Check(valid: bool, helper: Helper, io: Io)

  /** `is_valid_currency`: refresh the map only when it is empty, then test the
      upper-cased code for membership. */
  function IsValidCurrency(h: Helper, code: string, net: Net, io: Io): (r: Check)
    ensures r.valid <==> Text.Upper(code) in r.helper.currencies
    ensures h.currencies != map[] ==> r.helper == h && r.io == io
    ensures h.currencies == map[] ==> r == (var u := UpdateCache(h, net, io); Check(r.valid, u.helper, u.io))
    ensures Extends(io, r.io) && NoConversion(io, r.io)
    ensures r.helper.baseUrl == h.baseUrl && r.helper.apiKey == h.apiKey
  {
    var (h', io') := if h.currencies == map[] then (var u := UpdateCache(h, net, io); (u.helper, u.io)) else (h, io);
    Check(Text.Upper(code) in h'.currencies, h', io')
  }

  /** `convert`: one request to the `convert` endpoint with upper-cased codes. */
  function Convert(h: Helper, from: string, to: string, amount: Amount, net: Net, io: Io): (r: Effect<Response>)
    ensures r.io == Io(io.file, io.requests + [Request(h.baseUrl + "/convert", h.apiKey,
                                                       ConvertQuery(Text.Upper(from), Text.Upper(to), amount))])
    ensures r.value == net(r.io.requests[|io.requests|], |io.requests|)
  {
    var r := MakeRequest(h, "convert", ConvertQuery(Text.Upper(from), Text.Upper(to), amount), net, io);
    assert h.baseUrl + "/" + "convert" == h.baseUrl + "/convert";
    assert r.io.requests == r.io.requests[..|io.requests|] + [r.io.requests[|io.requests|]];
    r
  }

  // ---------------------------------------------------------------------------
  // The helper's map and the cache file never disagree.

  lemma NewCoherent(env: Config.Env, file: CacheFile)
    requires New(env, file).Success?
    ensures Coherent(New(env, file).value, file)
  {
  }

  /** A refresh keeps the map and the file in step, whether or not it succeeds. */
  lemma UpdateCacheCoherent(h: Helper, net: Net, io: Io)
    requires Coherent(h, io.file)
    ensures var r := UpdateCache(h, net, io); Coherent(r.helper, r.io.file)
  {
  }

  lemma IsValidCurrencyCoherent(h: Helper, code: string, net: Net, io: Io)
    requires Coherent(h, io.file)
    ensures var r := IsValidCurrency(h, code, net, io); Coherent(r.helper, r.io.file)
  {
    if h.currencies == map[] {
      UpdateCacheCoherent(h, net, io);
    }
  }

  /** Once a check has left a non-empty map behind, a second check issues no request. */
  lemma SecondCheckIsLocal(h: Helper, a: string, b: string, net: Net, io: Io)
    requires IsValidCurrency(h, a, net, io).helper.currencies != map[]
    ensures var r1 := IsValidCurrency(h, a, net, io);
            var r2 := IsValidCurrency(r1.helper, b, net, r1.io);
            r2.io == r1.io && r2.helper == r1.helper
  {
  }

  /** An unsuccessful refresh of an empty map leaves every code invalid. */
  lemma FailedRefreshRejects(h: Helper, code: string, net: Net, io: Io)
    requires h.currencies == map[]
    requires !Succeeded(net(Request(h.baseUrl + "/list", h.apiKey, ListQuery), |io.requests|))
    ensures !IsValidCurrency(h, code, net, io).valid
  {
  }

  /** Validation ignores letter case: a code and its upper-cased form get the same answer
      and cause the same effects. */
  lemma ValidityIgnoresCase(h: Helper, code: string, net: Net, io: Io)
    ensures IsValidCurrency(h, code, net, io) == IsValidCurrency(h, Text.Upper(code), net, io)
  {
    Text.UpperIdempotent(code);
  }
}

=== FILE: currency_pattern.dfy ===
/** The conversion request syntax of `/currency1`: the regular expression
    `(\d+\.?\d*)\s+([A-Z]{3})\s+to\s+([A-Z]{3})` searched with `re.IGNORECASE`.

    Each greedy run in the pattern can only be followed by a character it does not
    match (a digit run by `.` or whitespace, a whitespace run by a letter or `t`), so at
    any start position at most one decomposition exists and it takes every run at its
    maximal extent. `ScanAt` finds those pieces directly and `MatchAt` reads the groups
    off them; `Delimits` and `MatchesAt` are the declarative reading of the pattern, and
    the lemmas below show the two agree. */
module ConvertPattern {
  import opened Wrappers
  import Text
  import Numerals

  /** `[A-Z]` under `re.IGNORECASE` (ASCII letters). */
  predicate IsLetter(c: char) {
    'A' <= c <= 'Z' || 'a' <= c <= 'z'
  }

  /** `s[p..]` begins with `[A-Z]{3}` under `re.IGNORECASE`. */
  predicate LettersAt(s: string, p: int) {
    0 <= p && p + 3 <= |s| && IsLetter(s[p]) && IsLetter(s[p + 1]) && IsLetter(s[p + 2])
  }

  /** `s[p..]` begins with `to` under `re.IGNORECASE`. */
  predicate ToAt(s: string, p: int) {
    0 <= p && p + 2 <= |s| && (s[p] == 't' || s[p] == 'T') && (s[p + 1] == 'o' || s[p + 1] == 'O')
  }

  /** The character at `k`. The run predicates below speak of `At(s, k)` rather than
      `s[k]`, so that the verifier looks inside a run only where a proof names a
      position of it. */
  function At(s: string, k: int): (c: char)
    requires 0 <= k < |s|
    ensures c == s[k]
  {
    s[k]
  }

  /** Every character of `s` from `lo` up to `hi` is a digit. */
  predicate DigitsIn(s: string, lo: int, hi: int) {
    forall k {:trigger At(s, k)} :: lo <= k < hi && 0 <= k < |s| ==> Numerals.IsDigit(At(s, k))
  }

  /** Every character of `s` from `lo` up to `hi` is whitespace. */
  predicate SpacesIn(s: string, lo: int, hi: int) {
    forall k {:trigger At(s, k)} :: lo <= k < hi && 0 <= k < |s| ==> Text.IsSpace(At(s, k))
  }

  /** `s[i..e]` splits at `k` into `\d+` and `\.?\d*`. */
  predicate AmountSplit(s: string, i: int, k: int, e: int) {
    && 0 <= i < k <= e
    && DigitsIn(s, i, k)
    && (k == e || (k < |s| && s[k] == '.' && DigitsIn(s, k + 1, e)))
  }

  /** `s[i..e]` matches `\d+\.?\d*` as a whole. */
  ghost predicate AmountAt(s: string, i: int, e: int) {
    exists k :: AmountSplit(s, i, k, e)
  }

  /** The three capture groups: amount, source code, target code. */
  datatype Groups = Groups(amount: string, source: string, target: string)

  /** Where a match ends its amount and begins its source code, `to` and target code. */
  datatype Spans = Spans(amountEnd: nat, src: nat, to: nat, dst: nat)

  /** `s[p..]` begins with `\s+[A-Z]{3}\s+to\s+[A-Z]{3}`, the letter groups starting at
      `src` and `dst` and `to` at `to`. */
  predicate TailRuns(s: string, p: int, src: int, to: int, dst: int) {
    && p < src && SpacesIn(s, p, src) && LettersAt(s, src)
    && src + 3 < to && SpacesIn(s, src + 3, to) && ToAt(s, to)
    && to + 2 < dst && SpacesIn(s, to + 2, dst) && LettersAt(s, dst)
  }

  /** `s[i..]` begins with a match of the pattern whose pieces lie where `sp` says. */
  ghost predicate Delimits(s: string, i: int, sp: Spans) {
    AmountAt(s, i, sp.amountEnd) && TailRuns(s, sp.amountEnd, sp.src, sp.to, sp.dst)
  }

  /** The capture groups of the pieces `sp` delimits. */
  function GroupsOf(s: string, i: nat, sp: Spans): (g: Groups)
    requires i <= sp.amountEnd <= |s| && sp.src + 3 <= |s| && sp.dst + 3 <= |s|
    ensures |g.amount| == sp.amountEnd - i && |g.source| == 3 && |g.target| == 3
  {
    Groups(s[i..sp.amountEnd], s[sp.src..sp.src + 3], s[sp.dst..sp.dst + 3])
  }

  /** The pattern matches at `i` with groups `g`. */
  ghost predicate MatchesAt(s: string, i: nat, g: Groups) {
    exists sp :: Delimits(s, i, sp) && g == GroupsOf(s, i, sp)
  }

  /** The end of the digit run starting at `i`. */
  function DigitEnd(s: string, i: nat): (e: nat)
    requires i <= |s|
    ensures i <= e <= |s|
    ensures DigitsIn(s, i, e)
    ensures e == |s| || !Numerals.IsDigit(s[e])
    decreases |s| - i
  {
    if i == |s| || !Numerals.IsDigit(s[i]) then i else DigitEnd(s, i + 1)
  }

  /** The end of the whitespace run starting at `i`. */
  function SpaceEnd(s: string, i: nat): (e: nat)
    requires i <= |s|
    ensures i <= e <= |s|
    ensures SpacesIn(s, i, e)
    ensures e == |s| || !Text.IsSpace(s[e])
    decreases |s| - i
  {
    if i == |s| || !Text.IsSpace(s[i]) then i else SpaceEnd(s, i + 1)
  }

  /** The end of the greedy `\d+\.?\d*` run starting at `i`. */
  function AmountEnd(s: string, i: nat): (a: nat)
    requires i <= |s|
    ensures DigitEnd(s, i) <= a <= |s|
  {
    var d := DigitEnd(s, i);
    if d < |s| && s[d] == '.' then DigitEnd(s, d + 1) else d
  }

  /** Where the source code, `to` and the target code begin, or that `s[p..]` does not
      begin with the rest of the pattern. */
  datatype Tail = NoTail | Tail(src: nat, to: nat, dst: nat)

  /** The positions of the two letter groups and of `to` when `s[p..]` begins with
      `\s+[A-Z]{3}\s+to\s+[A-Z]{3}`, every whitespace run taken at its maximal extent. */
  function TailAt(s: string, p: nat): (r: Tail)
    requires p <= |s|
    ensures r.Tail? ==> r.dst + 3 <= |s|
    ensures r.Tail? ==> p < r.src && r.src + 3 < r.to && r.to + 2 < r.dst
  {
    var p2 := SpaceEnd(s, p);
    if p2 == p || !LettersAt(s, p2) then NoTail
    else
      var p4 := SpaceEnd(s, p2 + 3);
      if p4 == p2 + 3 || !ToAt(s, p4) then NoTail
      else
        var p6 := SpaceEnd(s, p4 + 2);
        if p6 == p4 + 2 || !LettersAt(s, p6) then NoTail
        else Tail(p2, p4, p6)
  }

  /** The scan anchored at `i`, every run taken at its maximal extent. */
  function ScanAt(s: string, i: nat): (r: Option<Spans>)
    ensures r.Some? ==> i < r.value.amountEnd < r.value.src
    ensures r.Some? ==> r.value.src + 3 < r.value.to && r.value.to + 2 < r.value.dst && r.value.dst + 3 <= |s|
  {
    if i > |s| || DigitEnd(s, i) == i then None
    else
      var a := AmountEnd(s, i);
      match TailAt(s, a)
      case NoTail => None
      case Tail(src, to, dst) => Some(Spans(a, src, to, dst))
  }

  /** The match anchored at `i`: the groups of the pieces the scan delimits. */
  function MatchAt(s: string, i: nat): (m: Option<Groups>)
  {
    match ScanAt(s, i)
    case None => None
    case Some(sp) => Some(GroupsOf(s, i, sp))
  }

  lemma {:induction false} DigitEndExact(s: string, i: nat, e: nat)
    requires i <= e <= |s|
    requires DigitsIn(s, i, e)
    requires e == |s| || !Numerals.IsDigit(s[e])
    ensures DigitEnd(s, i) == e
    decreases e - i
  {
    if i < e {
      assert Numerals.IsDigit(At(s, i));
      DigitEndExact(s, i + 1, e);
    }
  }

  lemma {:induction false} SpaceEndExact(s: string, i: nat, e: nat)
    requires i <= e <= |s|
    requires SpacesIn(s, i, e)
    requires e == |s| || !Text.IsSpace(s[e])
    ensures SpaceEnd(s, i) == e
    decreases e - i
  {
    if i < e {
      assert Text.IsSpace(At(s, i));
      SpaceEndExact(s, i + 1, e);
    }
  }

  lemma AmountEndSound(s: string, i: nat)
    requires i < |s| && DigitEnd(s, i) > i
    ensures AmountAt(s, i, AmountEnd(s, i))
  {
    assert AmountSplit(s, i, DigitEnd(s, i), AmountEnd(s, i));
  }

  lemma AmountEndComplete(s: string, i: nat, e: nat)
    requires e <= |s| && AmountAt(s, i, e)
    requires e == |s| || Text.IsSpace(s[e])
    ensures DigitEnd(s, i) > i && AmountEnd(s, i) == e
  {
    var k :| AmountSplit(s, i, k, e);
    DigitEndExact(s, i, k);
    if k < e {
      DigitEndExact(s, k + 1, e);
    }
  }

  lemma TailSound(s: string, p: nat)
    requires p <= |s| && TailAt(s, p).Tail?
    ensures TailRuns(s, p, TailAt(s, p).src, TailAt(s, p).to, TailAt(s, p).dst)
  {
  }

  lemma TailComplete(s: string, p: nat, src: nat, to: nat, dst: nat)
    requires p <= |s| && TailRuns(s, p, src, to, dst)
    ensures TailAt(s, p) == Tail(src, to, dst)
  {
    assert !Text.IsSpace(s[src]) && !Text.IsSpace(s[to]) && !Text.IsSpace(s[dst]);
    SpaceEndExact(s, p, src);
    SpaceEndExact(s, src + 3, to);
    SpaceEndExact(s, to + 2, dst);
  }

  /** The pieces the scan finds are where a match of the pattern puts them. */
  lemma ScanSound(s: string, i: nat)
    requires ScanAt(s, i).Some?
    ensures Delimits(s, i, ScanAt(s, i).value)
  {
    AmountEndSound(s, i);
    TailSound(s, AmountEnd(s, i));
  }

  /** Wherever a match of the pattern puts its pieces, the scan finds them: at a given
      position the pieces of a match are unique. */
  lemma ScanComplete(s: string, i: nat, sp: Spans)
    requires Delimits(s, i, sp)
    ensures ScanAt(s, i) == Some(sp)
  {
    assert Text.IsSpace(At(s, sp.amountEnd));
    AmountEndComplete(s, i, sp.amountEnd);
    TailComplete(s, sp.amountEnd, sp.src, sp.to, sp.dst);
  }

  /** Whatever `MatchAt` returns is a match of the pattern. */
  lemma MatchAtSound(s: string, i: nat)
    requires MatchAt(s, i).Some?
    ensures MatchesAt(s, i, MatchAt(s, i).value)
  {
    ScanSound(s, i);
  }

  /** Any match of the pattern at `i` is the one `MatchAt` finds. */
  lemma MatchAtComplete(s: string, i: nat, g: Groups)
    requires MatchesAt(s, i, g)
    ensures MatchAt(s, i) == Some(g)
  {
    var sp :| Delimits(s, i, sp) && g == GroupsOf(s, i, sp);
    ScanComplete(s, i, sp);
  }

  /** The leftmost match at or after `i`, with its position (`re.search` from `i`). */
  function SearchFrom(s: string, i: nat): (r: Option<(nat, Groups)>)
    ensures r.Some? ==> i <= r.value.0 && MatchAt(s, r.value.0) == Some(r.value.1)
    ensures r.Some? ==> forall j :: i <= j < r.value.0 ==> MatchAt(s, j).None?
    ensures r.None? ==> forall j :: i <= j ==> MatchAt(s, j).None?
    decreases |s| + 1 - i
  {
    if i > |s| then None
    else
      match MatchAt(s, i)
      case Some(g) => Some((i, g))
      case None => SearchFrom(s, i + 1)
  }

  /** `re.search(pattern, s, re.IGNORECASE)`, reduced to its groups. */
  function Search(s: string): Option<Groups> {
    match SearchFrom(s, 0)
    case Some((_, g)) => Some(g)
    case None => None
  }

  /** `Search` returns the groups of the leftmost match, and nothing only when the
      pattern matches nowhere. */
  lemma SearchIsLeftmost(s: string)
    ensures Search(s).Some? ==>
              exists i: nat :: (MatchesAt(s, i, Search(s).value)
                                && forall j: nat, g :: j < i ==> !MatchesAt(s, j, g))
    ensures Search(s).None? ==> forall j: nat, g :: !MatchesAt(s, j, g)
  {
    var r := SearchFrom(s, 0);
    forall j: nat, g | MatchesAt(s, j, g)
      ensures MatchAt(s, j) == Some(g)
    {
      MatchAtComplete(s, j, g);
    }
    if r.Some? {
      MatchAtSound(s, r.value.0);
    }
  }

  /** Text without a digit holds no match. */
  lemma NoDigitNoMatch(s: string)
    requires forall k :: 0 <= k < |s| ==> !Numerals.IsDigit(s[k])
    ensures Search(s) == None
  {
  }

  /** Nothing is required after the target code: `EURO` yields `EUR`. */
  lemma TargetNeedsNoBoundary()
    ensures Search("10 USD to EURO") == Some(Groups("10", "USD", "EUR"))
  {
    var s := "10 USD to EURO";
    var g := Groups("10", "USD", "EUR");
    var sp := Spans(2, 3, 7, 10);
    assert AmountSplit(s, 0, 2, 2);
    assert s[0..2] == "10" && s[3..6] == "USD" && s[10..13] == "EUR";
    assert Delimits(s, 0, sp);
    MatchAtComplete(s, 0, g);
  }

  /** The letters and `to` match in any case; the groups keep the case as typed. */
  lemma CaseInsensitiveMatch()
    ensures Search("5.5 usd TO eur") == Some(Groups("5.5", "usd", "eur"))
  {
    var s := "5.5 usd TO eur";
    var g := Groups("5.5", "usd", "eur");
    var sp := Spans(3, 4, 8, 11);
    assert AmountSplit(s, 0, 1, 3);
    assert s[0..3] == "5.5" && s[4..7] == "usd" && s[11..14] == "eur";
    assert Delimits(s, 0, sp);
    MatchAtComplete(s, 0, g);
  }
}

=== FILE: decorators.dfy ===
/** The authorisation decorator around message handling: `require_auth` reads
    `ADMIN_ID`, lets the administrator through, and asks the role service about everybody
    else. (`log_command` only prints and passes the call on, so it is not modelled.) */
module Decorators {
  import opened Wrappers
  import Text
  import Numerals
  import opened Api
  import opened Base

  /** The answer of `check_command_access(command, user_id)`: `True`, or any other value,
      which the wrapper returns in place of the reply. */
  datatype Access = Granted | Refused(reply: Reply)

  /** The role service, which is not part of this model: an oracle over the full message
      text and the user id. */
  type AccessCheck = (string, int) -> Access

  /** Lines 23-24 as written: `int()` of the variable, then `.strip()` on the resulting
      `int`. An unset variable makes `int(None)` raise `TypeError`, a non-numeric one makes
      `int()` raise `ValueError`, and a numeric one reaches `.strip()`, which `int` lacks. */
  function LoadAdminIdAsWritten(adminId: Option<string>): (r: Result<int, ErrorKind>)
    ensures r.Failure?
    ensures adminId.None? ==> r.error == TypeError
    ensures adminId.Some? && Numerals.ParseInt(adminId.value).None? ==> r.error == ValueError
    ensures adminId.Some? && Numerals.ParseInt(adminId.value).Some? ==> r.error == AttributeError
  {
    match adminId
    case None => Failure(TypeError)
    case Some(s) =>
      match Numerals.ParseInt(s)
      case None => Failure(ValueError)
      case Some(_) => Failure(AttributeError)
  }

  /** Lines 22-34 as evidently intended: the raw variable is tested for being unset or
      blank, then converted with `int()`; every failure is a `ValueError`. */
  function LoadAdminId(adminId: Option<string>): (r: Result<int, ErrorKind>)
    ensures r.Failure? ==> r.error == ValueError
    ensures adminId.None? ==> r.Failure?
    ensures adminId.Some? && Text.Strip(adminId.value) == "" ==> r.Failure?
    ensures adminId.Some? ==> (r.Success? <==> Numerals.ParseInt(adminId.value).Some?)
    ensures r.Success? ==> Numerals.ParseInt(adminId.value) == Some(r.value)
  {
    match adminId
    case None => Failure(ValueError)
    case Some(s) =>
      if Text.Strip(s) == "" then Failure(ValueError)
      else
        match Numerals.ParseInt(s)
        case None => Failure(ValueError)
        case Some(n) => Success(n)
  }

  /** The wrapper's decision once the administrator id is known: the administrator always
      passes; anybody else passes only when the role service says `True`. */
  function Decide(admin: int, check: AccessCheck, text: string, user: int): (a: Access)
    ensures user == admin ==> a == Granted
    ensures user != admin ==> a == check(text, user)
  {
    if user == admin then Granted else check(text, user)
  }

  /** `require_auth`'s wrapper around `run`, the wrapped call, which sees and extends the
      effects `io`. A failure to read the administrator id raises before anything runs;
      a refusal answers with the service's value and has no effect. */
  function RequireAuth(admin: Result<int, ErrorKind>, check: AccessCheck, text: string, user: int,
                       run: Io -> Effect<Outcome>, io: Io): (r: Effect<Outcome>)
    ensures admin.Failure? ==> r == Effect(Raised(admin.error), io)
    ensures admin.Success? && Decide(admin.value, check, text, user).Granted? ==> r == run(io)
    ensures admin.Success? && Decide(admin.value, check, text, user).Refused? ==>
              r == Effect(Returned(Decide(admin.value, check, text, user).reply), io)
  {
    match admin
    case Failure(e) => Effect(Raised(e), io)
    case Success(a) =>
      match Decide(a, check, text, user)
      case Granted => run(io)
      case Refused(reply) => Effect(Returned(reply), io)
  }

  // ---------------------------------------------------------------------------
  // Properties

  /** As written, the wrapper never reaches the wrapped call: every message raises. */
  lemma AsWrittenAlwaysRaises(adminId: Option<string>, check: AccessCheck, text: string, user: int,
                              run: Io -> Effect<Outcome>, io: Io)
    ensures RequireAuth(LoadAdminIdAsWritten(adminId), check, text, user, run, io).value.Raised?
    ensures RequireAuth(LoadAdminIdAsWritten(adminId), check, text, user, run, io).io == io
  {
  }

  /** The corrected reading accepts the decimal spelling of every id. */
  lemma LoadsDecimalId(n: int)
    ensures LoadAdminId(Some(Numerals.IntToStr(n))) == Success(n)
  {
    Numerals.ParseIntToStr(n);
  }

  /** Like `int()`, the corrected reading tolerates surrounding whitespace. */
  lemma LoadsPaddedId(a: string, n: int, b: string)
    requires Text.AllSpace(a) && Text.AllSpace(b)
    ensures LoadAdminId(Some(a + Numerals.IntToStr(n) + b)) == Success(n)
  {
    var t := Numerals.IntToStr(n);
    var s := a + t + b;
    Text.StripOfPadded(a, t, b);
    Text.StripOfTrimmed(t);
    Numerals.ParseIntToStr(n);
    assert Numerals.ParseInt(s) == Numerals.ParseInt(t);
  }

  /** The role service is never consulted about the administrator. */
  lemma AdminIgnoresService(admin: int, c1: AccessCheck, c2: AccessCheck, text: string,
                            run: Io -> Effect<Outcome>, io: Io)
    ensures RequireAuth(Success(admin), c1, text, admin, run, io)
            == RequireAuth(Success(admin), c2, text, admin, run, io)
            == run(io)
  {
  }

  /** Either the wrapped call runs, or nothing happens. */
  lemma RunsOrNothing(admin: Result<int, ErrorKind>, check: AccessCheck, text: string, user: int,
                      run: Io -> Effect<Outcome>, io: Io)
    ensures var r := RequireAuth(admin, check, text, user, run, io);
            r == run(io) || r.io == io
  {
  }
}

=== FILE: factories.dfy ===
/** The command factory: the keyword before the first space selects a command class, and
    a fresh instance of it is built for every message. The currency commands' helpers
    therefore read the cache file as it is at that moment. */
module Factories {
  import opened Wrappers
  import Text
  import Numerals
  import Config
  import opened Api
  import opened Base
  import CurrencyHelper
  import CommandTable
  import HelpMenu
  import Shutdown
  import CommandCurrency
  import CommandDev
  import CommandCurrency1

  const UnknownCommand := "Unknown command. Type /help."

  /** A constructed command instance with the state its constructor built. */
  datatype Command =
    | HelpCommand
    | ShutdownCommand
    | CurrencyCommand(currency: CommandCurrency.Strategy)
    | DevCommand(dev: CommandDev.Strategy)
    | Currency1Command(currency1: CommandCurrency1.Strategy)

  /** The class a command instance belongs to. */
  function KindOf(cmd: Command): CommandTable.CommandKind {
    match cmd
    case HelpCommand => CommandTable.HelpMenu
    case ShutdownCommand => CommandTable.Shutdown
    case CurrencyCommand(_) => CommandTable.Currency
    case DevCommand(_) => CommandTable.Dev
    case Currency1Command(_) => CommandTable.Currency1
  }

  /** `CommandClass()`: run the class's constructor against the environment and the
      current cache file. */
  function Construct(kind: CommandTable.CommandKind, env: Config.Env, file: CacheFile): (cmd: Command)
    ensures KindOf(cmd) == kind
    ensures cmd.CurrencyCommand? ==> cmd.currency.helper == CurrencyHelper.New(env, file)
    ensures cmd.Currency1Command? ==> cmd.currency1.helper == CurrencyHelper.New(env, file)
    ensures cmd.DevCommand? ==> cmd.dev.adminIds == CommandDev.ParseAdminIds(env.adminIds)
  {
    match kind
    case HelpMenu => HelpCommand
    case Shutdown => ShutdownCommand
    case Currency => CurrencyCommand(CommandCurrency.Strategy(CurrencyHelper.New(env, file)))
    case Dev => DevCommand(CommandDev.Init(env.adminIds))
    case Currency1 => Currency1Command(CommandCurrency1.Strategy(CurrencyHelper.New(env, file)))
  }

  /** `CommandFactory.create_command`. */
  function CreateCommand(env: Config.Env, file: CacheFile, name: string): (r: Option<Command>)
    ensures r.None? <==> CommandTable.BaseCommand(name) !in CommandTable.Keys(CommandTable.CommandsMap)
    ensures r.Some? ==> (CommandTable.BaseCommand(name), KindOf(r.value)) in CommandTable.CommandsMap
    ensures r.Some? ==> r.value == Construct(KindOf(r.value), env, file)
  {
    match CommandTable.Lookup(name)
    case None => None
    case Some(kind) => Some(Construct(kind, env, file))
  }

  /** `execute` on an instance. Only the currency commands talk to the network or the
      cache file; `show` renders an amount as `:.2f` does. */
  function Execute(cmd: Command, env: Config.Env, text: string, chat: int, user: int,
                   show: string -> string, net: Net, io: Io): (r: Effect<Outcome>)
    ensures r.value.Returned? && r.value.reply.Some?
    ensures Extends(io, r.io)
    ensures !cmd.CurrencyCommand? && !cmd.Currency1Command? ==> r.io == io
    ensures r.value.reply == Some(Shutdown.Sentinel)
            <==> cmd.ShutdownCommand? && Numerals.IntToStr(user) == Config.ConfiguredAdminId(env)
  {
    ExtendsReflexive(io);
    Shutdown.SentinelHasNoSpace();
    match cmd
    case HelpCommand =>
      HelpMenu.HelpHasSpace(CommandTable.CommandsMap);
      Effect(HelpMenu.Handle(text, chat, user), io)
    case ShutdownCommand =>
      Effect(Returned(Some(Shutdown.Execute(Config.ConfiguredAdminId(env), text, chat, user))), io)
    case CurrencyCommand(st) =>
      var e := CommandCurrency.Handle(st, text, net, io);
      CurrencySpaced(st, text, net, io);
      Effect(Returned(Some(e.value)), e.io)
    case DevCommand(st) =>
      DevSpaced(st, text, chat, user);
      Effect(Returned(Some(CommandDev.Handle(st, text, chat, user))), io)
    case Currency1Command(st) =>
      var e := CommandCurrency1.Handle(st, text, show, net, io);
      Currency1Spaced(st, text, show, net, io);
      Effect(Returned(Some(e.value)), e.io)
  }

  // The replies of the other commands contain a space, which the marker does not, so
  // none of them can be taken for it.

  lemma CurrencySpaced(st: CommandCurrency.Strategy, text: string, net: Net, io: Io)
    ensures ' ' in CommandCurrency.Handle(st, text, net, io).value
  {
    CommandCurrency.HandleSpaced(st, text, net, io);
  }

  lemma DevSpaced(st: CommandDev.Strategy, text: string, chat: int, user: int)
    ensures ' ' in CommandDev.Handle(st, text, chat, user)
  {
  }

  lemma Currency1Spaced(st: CommandCurrency1.Strategy, text: string, show: string -> string, net: Net, io: Io)
    ensures ' ' in CommandCurrency1.Handle(st, text, show, net, io).value
  {
    CommandCurrency1.HandleSpaced(st, text, show, net, io);
  }

  // ---------------------------------------------------------------------------
  // Properties

  /** A word (as `split()` yields it) is looked up whole: the factory builds a command
      exactly for the five keywords. */
  lemma WordSelectsItself(env: Config.Env, file: CacheFile, w: string)
    requires Text.NoSpace(w)
    ensures CommandTable.BaseCommand(w) == w
    ensures CreateCommand(env, file, w).Some? <==> w in CommandTable.Keys(CommandTable.CommandsMap)
  {
    assert forall k :: 0 <= k < |w| ==> w[k] != ' ';
    Text.SplitPiece(w, ' ');
  }

  /** Whatever follows the first space does not influence which command is built. */
  lemma ArgumentsIgnored(env: Config.Env, file: CacheFile, w: string, rest: string)
    requires ' ' !in w
    ensures CreateCommand(env, file, w + " " + rest) == CreateCommand(env, file, w)
  {
    CommandTable.TextAfterSpaceIgnored(w, rest);
  }

  /** A currency command built now holds the map the cache file holds now: instances are
      never reused, so an earlier refresh is always visible. */
  lemma FreshInstanceSeesFile(env: Config.Env, file: CacheFile, name: string)
    ensures CreateCommand(env, file, name).Some? ==>
            var cmd := CreateCommand(env, file, name).value;
            && (cmd.CurrencyCommand? && cmd.currency.helper.Success? ==>
                  CurrencyHelper.Coherent(cmd.currency.helper.value, file))
            && (cmd.Currency1Command? && cmd.currency1.helper.Success? ==>
                  CurrencyHelper.Coherent(cmd.currency1.helper.value, file))
  {
  }

  /** The keywords are case-sensitive. */
  lemma KeywordsCaseSensitive(env: Config.Env, file: CacheFile)
    ensures CreateCommand(env, file, "/HELP").None?
    ensures CreateCommand(env, file, "/help") == Some(HelpCommand)
  {
    CommandTable.UpperCaseUnknown();
  }
}

=== FILE: handlers.dfy ===
/** The chain of responsibility a message passes before any command runs: each link
    either answers or hands the message to its successor; the last link answers `None`. */
module Handlers {
  import opened Wrappers
  import Text
  import opened Base

  /** The word the censorship link looks for, and its answer. */
  const BadWord := "badword"
  const Blocked := "Message blocked due to bad language!"

  /** The link classes: the base `Handler`, `CensorshipHandler`, `LoggingHandler`. */
  datatype Kind = Plain | Censorship | Logging

  /** A link and the links after it. */
  datatype Handler = Handler(kind: Kind, next: Option<Handler>)

  /** A link with no successor (`Handler.__init__`). */
  function Link(kind: Kind): (h: Handler)
    ensures h.kind == kind && h.next.None?
  {
    Handler(kind, None)
  }

  /** `set_next`: `h` with `n` as its successor. Python also returns `n`, which the
      chain's builder discards. */
  function SetNext(h: Handler, n: Handler): (r: Handler)
    ensures r.kind == h.kind && r.next == Some(n)
    ensures Kinds(r) == [h.kind] + Kinds(n)
  {
    Handler(h.kind, Some(n))
  }

  /** The kinds of the links, from `h` to the end of the chain. */
  function Kinds(h: Handler): (ks: seq<Kind>)
    ensures |ks| > 0 && ks[0] == h.kind
    decreases h
  {
    match h.next
    case None => [h.kind]
    case Some(n) => [h.kind] + Kinds(n)
  }

  /** `handle` on a link: the censorship link answers when the text contains the bad word;
      every other link defers to its successor; the end of the chain answers `None`. */
  function Handle(h: Handler, text: string): (r: Reply)
    ensures r.None? || r == Some(Blocked)
    decreases h
  {
    if h.kind == Censorship && Text.Contains(text, BadWord) then Some(Blocked)
    else
      match h.next
      case None => None
      case Some(n) => Handle(n, text)
  }

  /** `build_handler_chain`: censorship, then logging. */
  function BuildHandlerChain(): (h: Handler)
    ensures Kinds(h) == [Censorship, Logging]
  {
    SetNext(Link(Censorship), Link(Logging))
  }

  // ---------------------------------------------------------------------------
  // Properties

  /** A chain blocks exactly the texts containing the bad word, and only when one of its
      links is a censorship link. */
  lemma {:induction false} HandleVerdict(h: Handler, text: string)
    ensures Handle(h, text) == Some(Blocked) <==> Censorship in Kinds(h) && Text.Contains(text, BadWord)
    ensures Handle(h, text) == None <==> !(Censorship in Kinds(h) && Text.Contains(text, BadWord))
    decreases h
  {
    match h.next
    case None =>
    case Some(n) =>
      HandleVerdict(n, text);
      assert Kinds(h) == [h.kind] + Kinds(n);
  }

  /** Logging links (and plain ones) in front of a chain change nothing. */
  lemma TransparentLink(kind: Kind, n: Handler, text: string)
    requires kind != Censorship
    ensures Handle(SetNext(Link(kind), n), text) == Handle(n, text)
  {
  }

  /** The bot's chain answers only with the block message, and exactly for the texts
      containing the bad word. */
  lemma ChainVerdict(text: string)
    ensures Handle(BuildHandlerChain(), text) == (if Text.Contains(text, BadWord) then Some(Blocked) else None)
  {
    HandleVerdict(BuildHandlerChain(), text);
  }
}

=== FILE: help_menu.dfy ===
/** `/help`: a header line, then one `name - description` line per registered command,
    in sorted order, each description being the command class's docstring with its
    whitespace collapsed. */
module HelpMenu {
  import opened Wrappers
  import Text
  import Order
  import opened Base
  import CommandTable

  const Header := "Здравствуйте! Я бот. Доступные команды:"
  const NoDescription := "Описание отсутствует."

  /** `" ".join((doc or "Описание отсутствует.").strip().split())`. */
  function Describe(doc: Option<string>): (d: string)
    ensures doc.None? || doc == Some("") ==> d == NoDescription
    ensures doc.Some? && doc.value != "" ==> Text.Words(d) == Text.Words(doc.value) && Text.Canonical(d)
    ensures '\n' !in d
  {
    if doc.None? || doc.value == "" then
      assert NoDescription == "Описание" + " " + "отсутствует.";
      NoDescription
    else
      var ws := Text.Words(Text.Strip(doc.value));
      Text.WordsOfStrip(doc.value);
      Text.WordsOfJoin(ws);
      assert forall k :: 0 <= k < |ws| ==> '\n' !in ws[k];
      Text.JoinExcludes(ws, " ", '\n');
      Text.Join(ws, " ")
  }

  /** The text of the help line for a registered name, without its newline. */
  function Entry(table: seq<(string, CommandTable.CommandKind)>, name: string): string
    requires name in CommandTable.Keys(table)
  {
    name + " - " + Describe(CommandTable.Doc(CommandTable.Find(table, name).value))
  }

  function Entries(table: seq<(string, CommandTable.CommandKind)>, names: seq<string>): (es: seq<string>)
    requires forall k :: 0 <= k < |names| ==> names[k] in CommandTable.Keys(table)
    ensures |es| == |names|
    ensures forall k :: 0 <= k < |names| ==> es[k] == Entry(table, names[k])
  {
    seq(|names|, k requires 0 <= k < |names| => Entry(table, names[k]))
  }

  /** The keys of a table in ascending order (`sorted(commands_map.keys())`). */
  function SortedKeys(table: seq<(string, CommandTable.CommandKind)>): (ks: seq<string>)
    ensures Order.Sorted(ks)
    ensures multiset(ks) == multiset(CommandTable.Keys(table))
    ensures forall k :: 0 <= k < |ks| ==> ks[k] in CommandTable.Keys(table)
  {
    var ks := Order.Sort(CommandTable.Keys(table));
    assert forall k :: 0 <= k < |ks| ==> ks[k] in multiset(ks);
    ks
  }

  /** The help reply for a command table. */
  function HelpFor(table: seq<(string, CommandTable.CommandKind)>): string {
    Header + "\n" + Text.Terminated(Entries(table, SortedKeys(table)), "\n")
  }

  /** The factory's class attributes: only `commands_map` exists. */
  function FactoryAttribute(name: string): (r: Option<seq<(string, CommandTable.CommandKind)>>)
    ensures r.Some? <==> name == "commands_map"
    ensures r.Some? ==> r.value == CommandTable.CommandsMap
  {
    if name == "commands_map" then Some(CommandTable.CommandsMap) else None
  }

  /** `HelpMenuStrategy.handle` as written: it reads `CommandFactory.command_map`. */
  function HandleAsWritten(text: string, chat: int, user: int): (r: Outcome)
    ensures r.Returned? ==> FactoryAttribute("command_map").Some?
  {
    match FactoryAttribute("command_map")
    case None => Raised(AttributeError)
    case Some(table) => Returned(Some(HelpFor(table)))
  }

  /** `HelpMenuStrategy.handle` reading the attribute the factory defines. */
  function Handle(text: string, chat: int, user: int): (r: Outcome)
    ensures r == Returned(Some(HelpFor(CommandTable.CommandsMap)))
  {
    match FactoryAttribute("commands_map")
    case None => Raised(AttributeError)
    case Some(table) => Returned(Some(HelpFor(table)))
  }

  // ---------------------------------------------------------------------------
  // Properties

  /** As written, every `/help` raises `AttributeError`. */
  lemma AsWrittenAlwaysRaises(text: string, chat: int, user: int)
    ensures HandleAsWritten(text, chat, user) == Raised(AttributeError)
  {
  }

  /** Every help reply contains a space (the header has one). */
  lemma HelpHasSpace(table: seq<(string, CommandTable.CommandKind)>)
    ensures ' ' in HelpFor(table)
  {
    var h := HelpFor(table);
    assert Header[13] == ' ';
    assert h[13] == Header[13];
  }

  lemma EntriesHaveNoNewline(table: seq<(string, CommandTable.CommandKind)>, names: seq<string>)
    requires forall k :: 0 <= k < |names| ==> names[k] in CommandTable.Keys(table)
    requires forall k :: 0 <= k < |table| ==> '\n' !in table[k].0
    ensures forall k :: 0 <= k < |names| ==> '\n' !in Entries(table, names)[k]
  {
    forall k | 0 <= k < |names| ensures '\n' !in Entries(table, names)[k] {
      var d := Describe(CommandTable.Doc(CommandTable.Find(table, names[k]).value));
      assert Entries(table, names)[k] == names[k] + " - " + d;
      var i :| 0 <= i < |table| && CommandTable.Keys(table)[i] == names[k];
      assert '\n' !in table[i].0;
    }
  }

  lemma HelpForIsJoin(table: seq<(string, CommandTable.CommandKind)>)
    ensures HelpFor(table) == Text.Join([Header] + Entries(table, SortedKeys(table)) + [""], "\n")
  {
    Text.HeadedIsJoin(Header, Entries(table, SortedKeys(table)), "\n");
  }

  lemma HeaderHasNoNewline()
    ensures '\n' !in Header
  {
    assert Header == "Здравствуйте! Я бот." + " Доступные команды:";
  }

  /** The reply's lines: the header, one entry per key in sorted order, and the empty
      piece after the final newline. */
  lemma HelpLayout(table: seq<(string, CommandTable.CommandKind)>)
    requires forall k :: 0 <= k < |table| ==> '\n' !in table[k].0
    ensures Text.Split(HelpFor(table), '\n') == [Header] + Entries(table, SortedKeys(table)) + [""]
  {
    var names := SortedKeys(table);
    var es := Entries(table, names);
    EntriesHaveNoNewline(table, names);
    HelpForIsJoin(table);
    HeaderHasNoNewline();
    var parts := [Header] + es + [""];
    assert forall k :: 0 <= k < |parts| ==> '\n' !in parts[k] by {
      forall k | 0 <= k < |parts| ensures '\n' !in parts[k] {
        if 0 < k < |parts| - 1 {
          assert parts[k] == es[k - 1];
        }
      }
    }
    Text.SplitOfJoin(parts, '\n');
  }

  lemma ExpectedOrderSorted()
    ensures Order.Sorted(["/currency", "/currency1", "/dev", "/help", "/shutdown"])
  {
    var expected := ["/currency", "/currency1", "/dev", "/help", "/shutdown"];
    Order.PrefixBelow("/currency", "/currency1");
    Order.DifferAtBelow("/currency1", "/dev", 1);
    Order.DifferAtBelow("/dev", "/help", 1);
    Order.DifferAtBelow("/help", "/shutdown", 1);
    forall i, j | 0 <= i < j < |expected| ensures Order.Below(expected[i], expected[j]) {
      ChainBelow(expected, i, j);
    }
  }

  /** The listing order is the unique sorted arrangement of the keys. */
  lemma SortedKeysAre(table: seq<(string, CommandTable.CommandKind)>, expected: seq<string>)
    requires Order.Sorted(expected)
    requires multiset(expected) == multiset(CommandTable.Keys(table))
    ensures SortedKeys(table) == expected
  {
    Order.SortedUnique(SortedKeys(table), expected);
  }

  /** The five keywords in the order `/help` lists them. */
  lemma SortedCommandKeys()
    ensures SortedKeys(CommandTable.CommandsMap) == ["/currency", "/currency1", "/dev", "/help", "/shutdown"]
  {
    CommandTable.CommandsMapKeys();
    FactoryKeysSorted(CommandTable.CommandsMap);
  }

  /** A table with the factory's keys lists them in this order. */
  lemma FactoryKeysSorted(t: seq<(string, CommandTable.CommandKind)>)
    requires CommandTable.Keys(t) == ["/help", "/shutdown", "/currency", "/dev", "/currency1"]
    ensures SortedKeys(t) == ["/currency", "/currency1", "/dev", "/help", "/shutdown"]
  {
    var expected := ["/currency", "/currency1", "/dev", "/help", "/shutdown"];
    ExpectedIsPermutation();
    ExpectedOrderSorted();
    SortedKeysAre(t, expected);
  }

  lemma ExpectedIsPermutation()
    ensures multiset(["/currency", "/currency1", "/dev", "/help", "/shutdown"])
            == multiset(["/help", "/shutdown", "/currency", "/dev", "/currency1"])
  {
  }

  lemma FactoryKeysOneLine(t: seq<(string, CommandTable.CommandKind)>)
    requires CommandTable.Keys(t) == ["/help", "/shutdown", "/currency", "/dev", "/currency1"]
    ensures forall k :: 0 <= k < |t| ==> '\n' !in t[k].0
  {
    var keys := CommandTable.Keys(t);
    forall k | 0 <= k < |t| ensures '\n' !in t[k].0 {
      assert t[k].0 == keys[k];
    }
  }

  /** For a table with the factory's keys, the `/help` reply is the header, then one
      entry per keyword in sorted order, each ending in a newline. */
  lemma HelpLines(t: seq<(string, CommandTable.CommandKind)>)
    requires CommandTable.Keys(t) == ["/help", "/shutdown", "/currency", "/dev", "/currency1"]
    ensures SortedKeys(t) == ["/currency", "/currency1", "/dev", "/help", "/shutdown"]
    ensures Text.Split(HelpFor(t), '\n') == [Header] + Entries(t, SortedKeys(t)) + [""]
  {
    FactoryKeysSorted(t);
    FactoryKeysOneLine(t);
    HelpLayout(t);
  }

  /** Neighbouring order extends to the whole list. */
  lemma {:induction false} ChainBelow(s: seq<string>, i: nat, j: nat)
    requires forall k :: 0 <= k < |s| - 1 ==> Order.Below(s[k], s[k + 1])
    requires i <= j < |s|
    ensures Order.Below(s[i], s[j])
    decreases j - i
  {
    if i == j {
      Order.BelowReflexive(s[i]);
    } else {
      ChainBelow(s, i + 1, j);
      Order.BelowTransitive(s[i], s[i + 1], s[j]);
    }
  }

  /** A docstring of whitespace only is truthy, so it yields an empty description rather
      than the fallback text. */
  lemma BlankDocstringIsEmpty(doc: string)
    requires doc != "" && Text.AllSpace(doc)
    ensures Describe(Some(doc)) == ""
  {
    Text.WordsAfterSpaces(doc, "");
    assert doc + "" == doc;
  }
}

=== FILE: numerals.dfy ===
/** Decimal text and integers as Python converts between them: `str(n)`, `int(s)` and
    `s.isdigit()`, restricted to ASCII digits. */
module Numerals {
  import opened Wrappers
  import Text

  predicate IsDigit(c: char) {
    '0' <= c <= '9'
  }

  /** `s.isdigit()`: non-empty and made of digits only. */
  predicate IsDigits(s: string) {
    s != "" && forall k :: 0 <= k < |s| ==> IsDigit(s[k])
  }

  function DigitValue(c: char): nat
    requires IsDigit(c)
  {
    c as int - '0' as int
  }

  function DigitChar(d: nat): (c: char)
    requires d < 10
    ensures IsDigit(c) && DigitValue(c) == d
  {
    ('0' as int + d) as char
  }

  /** The number a digit string denotes, leading zeros allowed. */
  function Value(s: string): nat
    requires forall k :: 0 <= k < |s| ==> IsDigit(s[k])
    decreases |s|
  {
    if s == "" then 0 else 10 * Value(s[..|s| - 1]) + DigitValue(s[|s| - 1])
  }

  /** `str(n)` for a non-negative `n`: its shortest decimal spelling. */
  function NatToStr(n: nat): (s: string)
    ensures IsDigits(s)
    ensures Value(s) == n
    ensures |s| > 1 ==> s[0] != '0'
    decreases n
  {
    if n < 10 then [DigitChar(n)]
    else
      var t := NatToStr(n / 10);
      var s := t + [DigitChar(n % 10)];
      assert s[..|s| - 1] == t;
      s
  }

  /** `str(n)`: a minus sign before the digits of a negative number. */
  function IntToStr(n: int): (s: string)
    ensures s != ""
    ensures !Text.IsSpace(s[0]) && !Text.IsSpace(s[|s| - 1])
    ensures forall k :: 0 <= k < |s| ==> IsDigit(s[k]) || (k == 0 && s[k] == '-')
  {
    if n < 0 then "-" + NatToStr(-n) else NatToStr(n)
  }

  /** `int(s)` for a decimal literal: surrounding whitespace, then an optional sign,
      then digits; `None` where Python raises `ValueError`. */
  function ParseInt(s: string): (r: Option<int>)
    ensures r.Some? ==> Text.Strip(s) != ""
  {
    var t := Text.Strip(s);
    if t != "" && (t[0] == '-' || t[0] == '+') then
      if IsDigits(t[1..]) then
        var v: int := Value(t[1..]);
        Some(if t[0] == '-' then -v else v)
      else None
    else if IsDigits(t) then Some(Value(t))
    else None
  }

  /** Round trip: `int(str(n)) == n`. */
  lemma ParseIntToStr(n: int)
    ensures ParseInt(IntToStr(n)) == Some(n)
  {
    var s := IntToStr(n);
    Text.StripOfTrimmed(s);
    if n < 0 {
      assert s[1..] == NatToStr(-n);
    }
  }

  /** Distinct integers have distinct decimal spellings. */
  lemma IntToStrInjective(a: int, b: int)
    ensures IntToStr(a) == IntToStr(b) <==> a == b
  {
    ParseIntToStr(a);
    ParseIntToStr(b);
  }
}

=== FILE: order.dfy ===
/** Python's ordering of `str` values (code point by code point, a proper prefix first)
    and `sorted` over a list of strings. */
module Order {

  /** `a <= b` for Python strings. */
  predicate Below(a: string, b: string)
    decreases |a|
  {
    a == "" || (b != "" && (a[0] < b[0] || (a[0] == b[0] && Below(a[1..], b[1..]))))
  }

  lemma {:induction false} BelowReflexive(a: string)
    ensures Below(a, a)
    decreases |a|
  {
    if a != "" {
      BelowReflexive(a[1..]);
    }
  }

  lemma {:induction false} BelowAntisymmetric(a: string, b: string)
    requires Below(a, b) && Below(b, a)
    ensures a == b
    decreases |a|
  {
    if a != "" {
      BelowAntisymmetric(a[1..], b[1..]);
      assert a == [a[0]] + a[1..] && b == [b[0]] + b[1..];
    }
  }

  lemma {:induction false} BelowTransitive(a: string, b: string, c: string)
    requires Below(a, b) && Below(b, c)
    ensures Below(a, c)
    decreases |a|
  {
    if a != "" && a[0] == b[0] && b[0] == c[0] {
      BelowTransitive(a[1..], b[1..], c[1..]);
    }
  }

  lemma {:induction false} BelowTotal(a: string, b: string)
    ensures Below(a, b) || Below(b, a)
    decreases |a|
  {
    if a != "" && b != "" && a[0] == b[0] {
      BelowTotal(a[1..], b[1..]);
    }
  }

  /** A proper prefix comes first. */
  lemma {:induction false} PrefixBelow(a: string, b: string)
    requires |a| <= |b| && b[..|a|] == a
    ensures Below(a, b)
    decreases |a|
  {
    if a != "" {
      assert a[1..] == b[1..][..|a| - 1];
      PrefixBelow(a[1..], b[1..]);
    }
  }

  /** The first differing character decides. */
  lemma {:induction false} DifferAtBelow(a: string, b: string, i: nat)
    requires i < |a| && i < |b| && a[..i] == b[..i] && a[i] < b[i]
    ensures Below(a, b)
    decreases i
  {
    if i > 0 {
      assert a[0] == a[..i][0] && b[0] == b[..i][0];
      assert a[1..][..i - 1] == b[1..][..i - 1];
      DifferAtBelow(a[1..], b[1..], i - 1);
    }
  }

  predicate Sorted(s: seq<string>) {
    forall i, j :: 0 <= i < j < |s| ==> Below(s[i], s[j])
  }

  /** `x` is below every element of `s`. */
  predicate AllAbove(x: string, s: seq<string>) {
    forall k :: 0 <= k < |s| ==> Below(x, s[k])
  }

  lemma PrependSorted(x: string, s: seq<string>)
    requires Sorted(s) && AllAbove(x, s)
    ensures Sorted([x] + s)
  {
    var r := [x] + s;
    forall i, j | 0 <= i < j < |r|
      ensures Below(r[i], r[j])
    {
      if i > 0 {
        assert r[i] == s[i - 1] && r[j] == s[j - 1];
      } else {
        assert r[j] == s[j - 1];
      }
    }
  }

  lemma SmallerThanHead(x: string, s: seq<string>)
    requires Sorted(s) && s != [] && Below(x, s[0])
    ensures AllAbove(x, s)
  {
    forall k | 0 < k < |s|
      ensures Below(x, s[k])
    {
      BelowTransitive(x, s[0], s[k]);
    }
  }

  lemma HeadBelowInserted(x: string, s: seq<string>, t: seq<string>)
    requires Sorted(s) && s != [] && !Below(x, s[0])
    requires multiset(t) == multiset(s[1..]) + multiset{x}
    ensures AllAbove(s[0], t)
  {
    BelowTotal(x, s[0]);
    forall k | 0 <= k < |t|
      ensures Below(s[0], t[k])
    {
      assert t[k] in multiset(t);
      if t[k] != x {
        assert t[k] in multiset(s[1..]);
        var i :| 0 <= i < |s[1..]| && s[1..][i] == t[k];
        assert s[i + 1] == t[k];
      }
    }
  }

  /** Insert `x` into a sorted list after every element below it. */
  function Insert(x: string, s: seq<string>): (r: seq<string>)
    requires Sorted(s)
    ensures Sorted(r)
    ensures multiset(r) == multiset(s) + multiset{x}
    decreases |s|
  {
    if s == [] then [x]
    else if Below(x, s[0]) then
      SmallerThanHead(x, s);
      PrependSorted(x, s);
      [x] + s
    else
      var t := Insert(x, s[1..]);
      HeadBelowInserted(x, s, t);
      PrependSorted(s[0], t);
      assert s == [s[0]] + s[1..];
      [s[0]] + t
  }

  /** `sorted(s)`: the same elements, in ascending order. */
  function Sort(s: seq<string>): (r: seq<string>)
    ensures Sorted(r)
    ensures multiset(r) == multiset(s)
    decreases |s|
  {
    if s == [] then []
    else
      assert s == [s[0]] + s[1..];
      Insert(s[0], Sort(s[1..]))
  }

  /** There is only one sorted arrangement of a multiset of strings. */
  lemma {:induction false} SortedUnique(a: seq<string>, b: seq<string>)
    requires Sorted(a) && Sorted(b)
    requires multiset(a) == multiset(b)
    ensures a == b
    decreases |a|
  {
    if a != [] {
      SameHead(a, b);
      WithoutHead(a);
      WithoutHead(b);
      SortedUnique(a[1..], b[1..]);
      assert a == [a[0]] + a[1..] && b == [b[0]] + b[1..];
    }
  }

  /** Two sorted arrangements of one multiset start with the same string. */
  lemma SameHead(a: seq<string>, b: seq<string>)
    requires Sorted(a) && Sorted(b)
    requires multiset(a) == multiset(b)
    requires a != []
    ensures b != [] && a[0] == b[0]
  {
    assert a[0] in multiset(b);
    assert b[0] in multiset(a);
    var i :| 0 <= i < |b| && b[i] == a[0];
    var j :| 0 <= j < |a| && a[j] == b[0];
    if i > 0 { assert Below(b[0], b[i]); } else { BelowReflexive(b[0]); }
    if j > 0 { assert Below(a[0], a[j]); } else { BelowReflexive(a[0]); }
    BelowAntisymmetric(a[0], b[0]);
  }

  /** The tail of a sorted arrangement is a sorted arrangement of the rest. */
  lemma WithoutHead(a: seq<string>)
    requires Sorted(a) && a != []
    ensures Sorted(a[1..])
    ensures multiset(a[1..]) == multiset(a) - multiset{a[0]}
  {
    assert a == [a[0]] + a[1..];
  }
}

=== FILE: shutdown.dfy ===
/** `/shutdown`: only the configured administrator obtains the shutdown marker; the
    comparison is between the decimal spelling of the user id and the configured text. */
module Shutdown {
  import Text
  import Numerals

  /** The reply that tells the polling loop to stop. */
  const Sentinel := "__SHUTDOWN__"

  const Denial := "У вас нет прав для выполнения этой команды."

  lemma SentinelHasNoSpace()
    ensures ' ' !in Sentinel
  {
  }

  /** `ShutdownCommand.execute`: `adminId` is the configured `ADMIN_ID` text. */
  function Execute(adminId: string, text: string, chat: int, user: int): (r: string)
    ensures r == Sentinel <==> Numerals.IntToStr(user) == adminId
    ensures r != Sentinel ==> r == Denial
  {
    if Numerals.IntToStr(user) != adminId then Denial else Sentinel
  }

  /** With no administrator configured, nobody can shut the bot down. */
  lemma EmptyAdminLocksOut(text: string, chat: int, user: int)
    ensures Execute("", text, chat, user) == Denial
  {
  }

  /** An administrator id written with surrounding whitespace matches no user, although
      `int()` would accept it. */
  lemma PaddedAdminLocksOut(adminId: string, text: string, chat: int, user: int)
    requires adminId != "" && (Text.IsSpace(adminId[0]) || Text.IsSpace(adminId[|adminId| - 1]))
    ensures Execute(adminId, text, chat, user) == Denial
  {
  }

  /** With the decimal spelling of `admin` configured, exactly that user obtains the
      marker, whatever the text and chat. */
  lemma OnlyAdminShutsDown(admin: int, text: string, chat: int, user: int)
    ensures Execute(Numerals.IntToStr(admin), text, chat, user) == Sentinel <==> user == admin
  {
    Numerals.IntToStrInjective(user, admin);
  }

  /** Text and chat never influence the answer. */
  lemma IgnoresTextAndChat(adminId: string, t1: string, t2: string, c1: int, c2: int, user: int)
    ensures Execute(adminId, t1, c1, user) == Execute(adminId, t2, c2, user)
  {
  }
}

=== FILE: text.dfy ===
/** The Python `str` operations the bot relies on: whitespace classification,
    `split()` with and without a separator, `strip()`, `join`, `in` and `replace`. */
module Text {

  /** Python's `str.isspace()` for one character; the same set is what `\s` matches
      in a `str` regular expression. */
  predicate IsSpace(c: char) {
    || c == ' '
    || ('\t' <= c <= '\r')
    || ('\U{1C}' <= c <= '\U{1F}')
    || c == '\U{85}' || c == '\U{A0}' || c == '\U{1680}'
    || ('\U{2000}' <= c <= '\U{200A}')
    || c == '\U{2028}' || c == '\U{2029}' || c == '\U{202F}' || c == '\U{205F}' || c == '\U{3000}'
  }

  predicate NoSpace(s: string) {
    forall k :: 0 <= k < |s| ==> !IsSpace(s[k])
  }

  predicate AllSpace(s: string) {
    forall k :: 0 <= k < |s| ==> IsSpace(s[k])
  }

  // ---------------------------------------------------------------------------
  // str.split() with no argument

  /** The index of the first whitespace character at or after `i`, or `|s|`. */
  function WordEnd(s: string, i: nat): (e: nat)
    requires i <= |s|
    ensures i <= e <= |s|
    ensures NoSpace(s[i..e])
    ensures e == |s| || IsSpace(s[e])
    decreases |s| - i
  {
    if i == |s| || IsSpace(s[i]) then i
    else
      var e := WordEnd(s, i + 1);
      assert s[i..e] == [s[i]] + s[i + 1..e];
      e
  }

  /** `s.split()`: the maximal runs of non-whitespace characters, in order. */
  function Words(s: string): (ws: seq<string>)
    ensures forall k :: 0 <= k < |ws| ==> ws[k] != "" && NoSpace(ws[k])
    decreases |s|
  {
    if s == "" then []
    else if IsSpace(s[0]) then Words(s[1..])
    else
      var e := WordEnd(s, 0);
      [s[..e]] + Words(s[e..])
  }

  /** A text has no words exactly when it is all whitespace. */
  lemma {:induction false} WordsEmptyIff(s: string)
    ensures Words(s) == [] <==> AllSpace(s)
    decreases |s|
  {
    if s != "" && IsSpace(s[0]) {
      WordsEmptyIff(s[1..]);
      if AllSpace(s[1..]) {
        forall k | 0 <= k < |s| ensures IsSpace(s[k]) {
          if k > 0 { assert s[k] == s[1..][k - 1]; }
        }
      }
    }
  }

  lemma WordEndExact(s: string, i: nat, e: nat)
    requires i <= e <= |s|
    requires NoSpace(s[i..e])
    requires e == |s| || IsSpace(s[e])
    ensures WordEnd(s, i) == e
    decreases e - i
  {
    if i < e {
      assert s[i..e][0] == s[i];
      assert s[i + 1..e] == s[i..e][1..];
      WordEndExact(s, i + 1, e);
    }
  }

  /** Leading whitespace never changes the words. */
  lemma {:induction false} WordsAfterSpaces(a: string, s: string)
    requires AllSpace(a)
    ensures Words(a + s) == Words(s)
    decreases |a|
  {
    if a != "" {
      var t := a + s;
      assert t[0] == a[0] && IsSpace(t[0]);
      assert t[1..] == a[1..] + s;
      WordsAfterSpaces(a[1..], s);
    } else {
      assert a + s == s;
    }
  }

  /** Trailing whitespace never changes the words. */
  lemma {:induction false} WordsBeforeSpaces(s: string, t: string)
    requires AllSpace(t)
    ensures Words(s + t) == Words(s)
    decreases |s|
  {
    if s == "" {
      assert s + t == t + "";
      WordsAfterSpaces(t, "");
    } else if IsSpace(s[0]) {
      assert (s + t)[1..] == s[1..] + t;
      WordsBeforeSpaces(s[1..], t);
    } else {
      var e := WordEnd(s, 0);
      assert s[0..e] == s[..e];
      assert (s + t)[0..e] == s[..e];
      WordEndExact(s + t, 0, e);
      assert (s + t)[..e] == s[..e];
      assert (s + t)[e..] == s[e..] + t;
      WordsBeforeSpaces(s[e..], t);
    }
  }

  // ---------------------------------------------------------------------------
  // str.join

  /** `sep.join(parts)`. */
  function Join(parts: seq<string>, sep: string): string
    decreases |parts|
  {
    if |parts| == 0 then ""
    else if |parts| == 1 then parts[0]
    else parts[0] + sep + Join(parts[1..], sep)
  }

  /** A character absent from the pieces and the separator is absent from the join. */
  lemma {:induction false} JoinExcludes(parts: seq<string>, sep: string, c: char)
    requires c !in sep
    requires forall k :: 0 <= k < |parts| ==> c !in parts[k]
    ensures c !in Join(parts, sep)
    decreases |parts|
  {
    if |parts| > 1 {
      JoinExcludes(parts[1..], sep, c);
    }
  }

  /** Every piece followed by the separator is the join of the pieces and one empty
      piece. */
  function Terminated(parts: seq<string>, sep: string): string
    decreases |parts|
  {
    if parts == [] then "" else parts[0] + sep + Terminated(parts[1..], sep)
  }

  lemma {:induction false} TerminatedIsJoin(parts: seq<string>, sep: string)
    ensures Terminated(parts, sep) == Join(parts + [""], sep)
    decreases |parts|
  {
    if parts != [] {
      TerminatedIsJoin(parts[1..], sep);
      assert (parts + [""])[1..] == parts[1..] + [""];
    }
  }

  /** A head line followed by terminated pieces is the join of the head, the pieces and
      one empty piece. */
  lemma HeadedIsJoin(head: string, parts: seq<string>, sep: string)
    ensures head + sep + Terminated(parts, sep) == Join([head] + parts + [""], sep)
  {
    TerminatedIsJoin(parts, sep);
    assert ([head] + parts + [""])[1..] == parts + [""];
  }

  predicate IsWordList(ws: seq<string>) {
    forall k :: 0 <= k < |ws| ==> ws[k] != "" && NoSpace(ws[k])
  }

  /** Round trip: splitting the single-space join of a word list gives the list back. */
  lemma {:induction false} WordsOfJoin(ws: seq<string>)
    requires IsWordList(ws)
    ensures Words(Join(ws, " ")) == ws
    decreases |ws|
  {
    if |ws| == 1 {
      var w := ws[0];
      assert w[0..|w|] == w;
      WordEndExact(w, 0, |w|);
      assert w[..|w|] == w && w[|w|..] == "";
    } else if |ws| > 1 {
      var w := ws[0];
      var rest := Join(ws[1..], " ");
      var s := w + " " + rest;
      assert s[0..|w|] == w;
      WordEndExact(s, 0, |w|);
      assert s[..|w|] == w;
      assert s[|w|..] == " " + rest;
      WordsAfterSpaces(" ", rest);
      WordsOfJoin(ws[1..]);
      assert [w] + ws[1..] == ws;
    }
  }

  /** `gaps[0] + ws[0] + gaps[1] + ... + ws[n - 1] + gaps[n]`. */
  function Interleave(gaps: seq<string>, ws: seq<string>): string
    requires |gaps| == |ws| + 1
    decreases |ws|
  {
    if ws == [] then gaps[0] else gaps[0] + ws[0] + Interleave(gaps[1..], ws[1..])
  }

  /** `ws` are the maximal non-whitespace runs between whitespace `gaps`: every gap is
      whitespace, and every gap between two words is non-empty. */
  predicate Separates(gaps: seq<string>, ws: seq<string>) {
    && |gaps| == |ws| + 1
    && IsWordList(ws)
    && (forall k :: 0 <= k < |gaps| ==> AllSpace(gaps[k]))
    && (forall k :: 0 < k < |ws| ==> gaps[k] != "")
  }

  /** A word followed by nothing or by whitespace is split off whole. */
  lemma WordsAfterWord(w: string, t: string)
    requires w != "" && NoSpace(w)
    requires t == "" || IsSpace(t[0])
    ensures Words(w + t) == [w] + Words(t)
  {
    var s := w + t;
    assert s[0..|w|] == w;
    WordEndExact(s, 0, |w|);
    assert s[..|w|] == w && s[|w|..] == t;
  }

  /** Completeness: text made of words separated by whitespace splits into those words. */
  lemma {:induction false} WordsOfInterleave(gaps: seq<string>, ws: seq<string>)
    requires Separates(gaps, ws)
    ensures Words(Interleave(gaps, ws)) == ws
    decreases |ws|
  {
    if ws == [] {
      assert gaps[0] + "" == gaps[0];
      WordsAfterSpaces(gaps[0], "");
    } else {
      var t := Interleave(gaps[1..], ws[1..]);
      TailSeparated(gaps, ws);
      WordsOfInterleave(gaps[1..], ws[1..]);
      WordsAfterWord(ws[0], t);
      assert gaps[0] + ws[0] + t == gaps[0] + (ws[0] + t);
      WordsAfterSpaces(gaps[0], ws[0] + t);
      assert [ws[0]] + ws[1..] == ws;
    }
  }

  /** What follows the first word is again separated words, and starts with whitespace
      unless it is empty. */
  lemma TailSeparated(gaps: seq<string>, ws: seq<string>)
    requires Separates(gaps, ws) && ws != []
    ensures Separates(gaps[1..], ws[1..])
    ensures var t := Interleave(gaps[1..], ws[1..]); t == "" || IsSpace(t[0])
  {
    forall k | 0 < k < |ws[1..]| ensures gaps[1..][k] != "" {
      assert gaps[1..][k] == gaps[k + 1];
    }
    var t := Interleave(gaps[1..], ws[1..]);
    if |ws| > 1 {
      assert gaps[1..][1..] == gaps[2..] && ws[1..][1..] == ws[2..];
      assert t == gaps[1] + (ws[1] + Interleave(gaps[2..], ws[2..]));
      assert gaps[1] != "" && t[0] == gaps[1][0];
    } else {
      assert t == gaps[1];
    }
  }

  /** Soundness: the words of any text are separated by whitespace gaps that make up the
      rest of it. */
  lemma {:induction false} WordsSeparated(s: string) returns (gaps: seq<string>)
    ensures Separates(gaps, Words(s)) && Interleave(gaps, Words(s)) == s
    ensures s != "" && IsSpace(s[0]) ==> gaps[0] != ""
    decreases |s|
  {
    if s == "" {
      gaps := [""];
    } else if IsSpace(s[0]) {
      var rest := WordsSeparated(s[1..]);
      gaps := SpaceFirst(s, rest);
    } else {
      var rest := WordsSeparated(s[WordEnd(s, 0)..]);
      gaps := WordFirst(s, rest);
    }
  }

  lemma SpaceFirst(s: string, rest: seq<string>) returns (gaps: seq<string>)
    requires s != "" && IsSpace(s[0])
    requires Separates(rest, Words(s[1..])) && Interleave(rest, Words(s[1..])) == s[1..]
    ensures Separates(gaps, Words(s)) && Interleave(gaps, Words(s)) == s && gaps[0] != ""
  {
    var ws := Words(s[1..]);
    assert Words(s) == ws;
    gaps := [[s[0]] + rest[0]] + rest[1..];
    InterleaveGrows(s[0], rest, ws);
    assert [s[0]] + s[1..] == s;
    assert AllSpace(gaps[0]) by {
      forall k | 0 <= k < |gaps[0]| ensures IsSpace(gaps[0][k]) {
        if k > 0 { assert gaps[0][k] == rest[0][k - 1]; }
      }
    }
    assert forall k :: 0 < k < |gaps| ==> gaps[k] == rest[k];
  }

  lemma WordFirst(s: string, rest: seq<string>) returns (gaps: seq<string>)
    requires s != "" && !IsSpace(s[0])
    requires var t := s[WordEnd(s, 0)..];
             && Separates(rest, Words(t)) && Interleave(rest, Words(t)) == t
             && (t != "" && IsSpace(t[0]) ==> rest[0] != "")
    ensures Separates(gaps, Words(s)) && Interleave(gaps, Words(s)) == s
  {
    var e := WordEnd(s, 0);
    FirstWord(s);
    gaps := [""] + rest;
    PrependWord(s[..e], rest, Words(s[e..]));
  }

  /** A text that starts with a word is that word followed by the rest of its words. */
  lemma FirstWord(s: string)
    requires s != "" && !IsSpace(s[0])
    ensures var e := WordEnd(s, 0);
            && Words(s) == [s[..e]] + Words(s[e..])
            && s[..e] != "" && NoSpace(s[..e])
            && s[..e] + s[e..] == s
            && (Words(s[e..]) != [] ==> IsSpace(s[e..][0]))
  {
    var e := WordEnd(s, 0);
    assert s[..e] == s[0..e];
  }

  /** A word in front of separated words, with an empty gap before it. */
  lemma PrependWord(w: string, gaps: seq<string>, ws: seq<string>)
    requires w != "" && NoSpace(w)
    requires Separates(gaps, ws) && (ws != [] ==> gaps[0] != "")
    ensures Separates([""] + gaps, [w] + ws)
    ensures Interleave([""] + gaps, [w] + ws) == w + Interleave(gaps, ws)
  {
    var g := [""] + gaps;
    assert g[1..] == gaps && ([w] + ws)[1..] == ws;
    assert "" + w + Interleave(gaps, ws) == w + Interleave(gaps, ws);
    assert forall k :: 0 < k < |g| ==> g[k] == gaps[k - 1];
  }

  /** Lengthening the first gap by one character lengthens the text by it. */
  lemma InterleaveGrows(c: char, gaps: seq<string>, ws: seq<string>)
    requires |gaps| == |ws| + 1
    ensures Interleave([[c] + gaps[0]] + gaps[1..], ws) == [c] + Interleave(gaps, ws)
  {
    var g := [[c] + gaps[0]] + gaps[1..];
    assert g[1..] == gaps[1..];
  }

  /** Every whitespace run of the joined text is a single space and it has no
      whitespace at either end. */
  predicate Canonical(s: string) {
    s == Join(Words(s), " ")
  }

  // ---------------------------------------------------------------------------
  // str.strip()

  /** The number of leading whitespace characters. */
  function LeadingSpaces(s: string): (n: nat)
    ensures n <= |s|
    ensures AllSpace(s[..n])
    ensures n == |s| || !IsSpace(s[n])
    decreases |s|
  {
    if s == "" || !IsSpace(s[0]) then 0
    else
      var n := LeadingSpaces(s[1..]);
      assert s[..n + 1] == [s[0]] + s[1..][..n];
      n + 1
  }

  /** The start of the trailing whitespace run of `s[lo..]`. */
  function TrailStart(s: string, lo: nat): (m: nat)
    requires lo <= |s|
    ensures lo <= m <= |s|
    ensures AllSpace(s[m..])
    ensures m == lo || !IsSpace(s[m - 1])
    decreases |s| - lo
  {
    if |s| == lo || !IsSpace(s[|s| - 1]) then |s|
    else
      var m := TrailStart(s[..|s| - 1], lo);
      assert s[m..] == s[..|s| - 1][m..] + [s[|s| - 1]];
      m
  }

  /** `s.strip()`: `s` without its leading and trailing whitespace. */
  function Strip(s: string): (r: string)
    ensures r == "" || (!IsSpace(r[0]) && !IsSpace(r[|r| - 1]))
    ensures exists i :: 0 <= i <= |s| - |r| && s[i..i + |r|] == r && AllSpace(s[..i]) && AllSpace(s[i + |r|..])
  {
    var i := LeadingSpaces(s);
    var j := TrailStart(s, i);
    assert i < j ==> !IsSpace(s[i]);
    assert s[i..i + (j - i)] == s[i..j];
    s[i..j]
  }

  lemma Thirds(s: string, i: nat, j: nat)
    requires i <= j <= |s|
    ensures s == s[..i] + (s[i..j] + s[j..])
  {
  }

  /** Stripping never changes the words. */
  lemma WordsOfStrip(s: string)
    ensures Words(Strip(s)) == Words(s)
  {
    var i := LeadingSpaces(s);
    var j := TrailStart(s, i);
    assert Strip(s) == s[i..j];
    Thirds(s, i, j);
    WordsAfterSpaces(s[..i], s[i..j] + s[j..]);
    WordsBeforeSpaces(s[i..j], s[j..]);
  }

  lemma LeadingSpacesExact(s: string, n: nat)
    requires n <= |s| && AllSpace(s[..n]) && (n == |s| || !IsSpace(s[n]))
    ensures LeadingSpaces(s) == n
  {
    var m := LeadingSpaces(s);
    assert forall k :: 0 <= k < n ==> IsSpace(s[k]) by {
      forall k | 0 <= k < n ensures IsSpace(s[k]) { assert s[..n][k] == s[k]; }
    }
    assert forall k :: 0 <= k < m ==> IsSpace(s[k]) by {
      forall k | 0 <= k < m ensures IsSpace(s[k]) { assert s[..m][k] == s[k]; }
    }
  }

  lemma TrailStartExact(s: string, lo: nat, m: nat)
    requires lo <= m <= |s| && AllSpace(s[m..]) && (m == lo || !IsSpace(s[m - 1]))
    ensures TrailStart(s, lo) == m
  {
    var e := TrailStart(s, lo);
    assert forall k :: m <= k < |s| ==> IsSpace(s[k]) by {
      forall k | m <= k < |s| ensures IsSpace(s[k]) { assert s[m..][k - m] == s[k]; }
    }
    assert forall k :: e <= k < |s| ==> IsSpace(s[k]) by {
      forall k | e <= k < |s| ensures IsSpace(s[k]) { assert s[e..][k - e] == s[k]; }
    }
  }

  /** Stripping removes exactly the whitespace around a trimmed text. */
  lemma StripOfPadded(a: string, t: string, b: string)
    requires AllSpace(a) && AllSpace(b)
    requires t == "" || (!IsSpace(t[0]) && !IsSpace(t[|t| - 1]))
    ensures Strip(a + t + b) == t
  {
    var s := a + t + b;
    if t == "" {
      assert AllSpace(s[..|s|]) by { assert s[..|s|] == a + b; }
      LeadingSpacesExact(s, |s|);
    } else {
      assert s[..|a|] == a;
      LeadingSpacesExact(s, |a|);
      assert s[|a| + |t|..] == b;
      TrailStartExact(s, |a|, |a| + |t|);
      assert s[|a|..|a| + |t|] == t;
    }
  }

  /** Text with no whitespace at its ends is its own strip. */
  lemma StripOfTrimmed(s: string)
    requires s == "" || (!IsSpace(s[0]) && !IsSpace(s[|s| - 1]))
    ensures Strip(s) == s
  {
  }

  // ---------------------------------------------------------------------------
  // str.split(sep) with a one-character separator

  /** `s.split(c)`: the pieces between occurrences of `c`, empty pieces kept. */
  function Split(s: string, c: char): (parts: seq<string>)
    ensures |parts| > 0
    ensures forall k :: 0 <= k < |parts| ==> c !in parts[k]
    ensures Join(parts, [c]) == s
    decreases |s|
  {
    if s == "" then [""]
    else
      var rest := Split(s[1..], c);
      if s[0] == c then
        assert Join([""] + rest, [c]) == [c] + Join(rest, [c]);
        [""] + rest
      else
        var parts := [[s[0]] + rest[0]] + rest[1..];
        assert Join(parts, [c]) == [s[0]] + Join(rest, [c]) by {
          if |rest| > 1 {
            assert parts[1..] == rest[1..];
          }
        }
        assert [s[0]] + s[1..] == s;
        parts
  }

  /** The first piece is the text up to the first separator. */
  lemma SplitPrefix(s: string, c: char)
    ensures StartsWith(s, Split(s, c)[0])
    ensures |Split(s, c)[0]| == |s| || s[|Split(s, c)[0]|] == c
  {
    var parts := Split(s, c);
    if |parts| > 1 {
      assert s == parts[0] + [c] + Join(parts[1..], [c]);
    } else {
      assert s == parts[0];
    }
  }

  lemma {:induction false} SplitPiece(w: string, c: char)
    requires c !in w
    ensures Split(w, c) == [w]
    decreases |w|
  {
    if w != "" {
      SplitPiece(w[1..], c);
      assert [w[0]] + w[1..] == w;
    }
  }

  lemma {:induction false} SplitAfterPiece(w: string, c: char, rest: string)
    requires c !in w
    ensures Split(w + [c] + rest, c) == [w] + Split(rest, c)
    decreases |w|
  {
    var s := w + [c] + rest;
    if w == "" {
      assert s[1..] == rest;
    } else {
      assert s[1..] == w[1..] + [c] + rest;
      SplitAfterPiece(w[1..], c, rest);
      assert [w[0]] + w[1..] == w;
    }
  }

  /** Round trip: splitting a join of separator-free pieces gives the pieces back. */
  lemma {:induction false} SplitOfJoin(parts: seq<string>, c: char)
    requires |parts| > 0
    requires forall k :: 0 <= k < |parts| ==> c !in parts[k]
    ensures Split(Join(parts, [c]), c) == parts
    decreases |parts|
  {
    if |parts| == 1 {
      SplitPiece(parts[0], c);
    } else {
      SplitAfterPiece(parts[0], c, Join(parts[1..], [c]));
      SplitOfJoin(parts[1..], c);
      assert [parts[0]] + parts[1..] == parts;
    }
  }

  // ---------------------------------------------------------------------------
  // `p in s` and str.replace

  predicate StartsWith(s: string, p: string) {
    |p| <= |s| && s[..|p|] == p
  }

  /** `p` occurs in `s` starting at index `i`. */
  predicate OccursAt(s: string, p: string, i: int) {
    0 <= i && i + |p| <= |s| && s[i..i + |p|] == p
  }

  /** Python's `p in s`: a case-sensitive substring test. */
  predicate Contains(s: string, p: string)
    decreases |s|
  {
    StartsWith(s, p) || (s != "" && Contains(s[1..], p))
  }

  /** `Contains` agrees with the positional definition of a substring. */
  lemma {:induction false} ContainsIff(s: string, p: string)
    ensures Contains(s, p) <==> exists i :: OccursAt(s, p, i)
    decreases |s|
  {
    if StartsWith(s, p) {
      assert OccursAt(s, p, 0);
    }
    if s != "" {
      ContainsIff(s[1..], p);
      if Contains(s[1..], p) {
        var i :| OccursAt(s[1..], p, i);
        assert s[1..][i..i + |p|] == s[i + 1..i + 1 + |p|];
        assert OccursAt(s, p, i + 1);
      }
      if i :| OccursAt(s, p, i) && i >= 1 {
        assert s[1..][i - 1..i - 1 + |p|] == s[i..i + |p|];
        assert OccursAt(s[1..], p, i - 1);
      }
    } else {
      if i :| OccursAt(s, p, i) {
        assert i == 0 && p == "";
      }
    }
  }

  /** A witness position proves containment. */
  lemma ContainsAt(s: string, p: string, i: nat)
    requires OccursAt(s, p, i)
    ensures Contains(s, p)
  {
    ContainsIff(s, p);
  }

  /** `p` cannot occur in a text lacking one of its characters. */
  lemma ContainsNeedsChar(s: string, p: string, k: nat)
    requires k < |p| && p[k] !in s
    ensures !Contains(s, p)
  {
    ContainsIff(s, p);
  }

  /** `s.replace(p, r)`: left-to-right, non-overlapping replacement. */
  function ReplaceAll(s: string, p: string, r: string): string
    requires p != ""
    decreases |s|
  {
    if StartsWith(s, p) then r + ReplaceAll(s[|p|..], p, r)
    else if s == "" then ""
    else [s[0]] + ReplaceAll(s[1..], p, r)
  }

  /** Text without an occurrence of `p` is left unchanged. */
  lemma {:induction false} ReplaceAbsent(s: string, p: string, r: string)
    requires p != ""
    requires !Contains(s, p)
    ensures ReplaceAll(s, p, r) == s
    decreases |s|
  {
    if s != "" {
      ReplaceAbsent(s[1..], p, r);
      assert [s[0]] + s[1..] == s;
    }
  }

  /** A leading character that does not start `p` is kept and scanning moves past it. */
  lemma ReplaceSkipsChar(c: char, s: string, p: string, r: string)
    requires p != "" && c != p[0]
    ensures ReplaceAll([c] + s, p, r) == [c] + ReplaceAll(s, p, r)
  {
    assert ([c] + s)[1..] == s;
    assert !StartsWith([c] + s, p) by { assert ([c] + s)[0] == c; }
  }

  /** A leading occurrence of `p` is replaced and scanning resumes after it. */
  lemma ReplaceLeading(p: string, s: string, r: string)
    requires p != ""
    ensures ReplaceAll(p + s, p, r) == r + ReplaceAll(s, p, r)
  {
    assert (p + s)[..|p|] == p;
    assert (p + s)[|p|..] == s;
  }

  /** Replacement works piece by piece when no occurrence of `p` straddles the
      boundary between the pieces. */
  lemma {:induction false} ReplaceConcat(x: string, y: string, p: string, r: string)
    requires p != ""
    requires forall i :: 0 <= i < |x| < i + |p| ==> !OccursAt(x + y, p, i)
    ensures ReplaceAll(x + y, p, r) == ReplaceAll(x, p, r) + ReplaceAll(y, p, r)
    decreases |x|
  {
    var s := x + y;
    if x == "" {
      assert s == y;
    } else if StartsWith(s, p) {
      assert OccursAt(s, p, 0) by { assert s[0..|p|] == s[..|p|]; }
      assert StartsWith(x, p) by { assert x[..|p|] == s[..|p|]; }
      assert s[|p|..] == x[|p|..] + y;
      NoStraddleShift(x, y, p, |p|);
      ReplaceConcat(x[|p|..], y, p, r);
    } else {
      assert !StartsWith(x, p) by {
        if |p| <= |x| { assert s[..|p|] == x[..|p|]; }
      }
      assert s[1..] == x[1..] + y;
      NoStraddleShift(x, y, p, 1);
      ReplaceConcat(x[1..], y, p, r);
    }
  }

  /** Dropping a prefix of the first piece keeps the boundary free of occurrences. */
  lemma NoStraddleShift(x: string, y: string, p: string, d: nat)
    requires d <= |x|
    requires forall i :: 0 <= i < |x| < i + |p| ==> !OccursAt(x + y, p, i)
    ensures forall i :: 0 <= i < |x[d..]| < i + |p| ==> !OccursAt(x[d..] + y, p, i)
  {
    var t := x[d..] + y;
    assert t == (x + y)[d..];
    forall i | 0 <= i < |x[d..]| < i + |p| ensures !OccursAt(t, p, i) {
      assert !OccursAt(x + y, p, i + d);
      if i + |p| <= |t| {
        assert t[i..i + |p|] == (x + y)[i + d..i + d + |p|];
      }
    }
  }

  /** A pattern whose first character does not recur in it cannot overlap itself. */
  predicate HeadUnique(p: string) {
    p != "" && forall j :: 0 < j < |p| ==> p[j] != p[0]
  }

  /** Every occurrence of a pattern that cannot overlap itself is replaced, whatever
      surrounds it. */
  lemma ReplaceAroundOccurrence(a: string, p: string, b: string, r: string)
    requires HeadUnique(p)
    ensures ReplaceAll(a + p + b, p, r) == ReplaceAll(a, p, r) + r + ReplaceAll(b, p, r)
  {
    var s := a + (p + b);
    assert a + p + b == s;
    forall i | 0 <= i < |a| < i + |p| ensures !OccursAt(s, p, i) {
      assert s[|a|] == p[0];
      assert p[|a| - i] != p[0];
      if i + |p| <= |s| {
        assert s[i..i + |p|][|a| - i] == s[|a|];
      }
    }
    ReplaceConcat(a, p + b, p, r);
    ReplaceLeading(p, b, r);
  }

  // ---------------------------------------------------------------------------
  // str.upper() on ASCII letters

  function UpperChar(c: char): (u: char)
    ensures 'a' <= c <= 'z' ==> 'A' <= u <= 'Z' && u as int == c as int - 32
    ensures !('a' <= c <= 'z') ==> u == c
  {
    if 'a' <= c <= 'z' then (c as int - 32) as char else c
  }

  /** `s.upper()`, letter by letter. */
  function Upper(s: string): (u: string)
    ensures |u| == |s|
    ensures forall k :: 0 <= k < |s| ==> u[k] == UpperChar(s[k])
  {
    seq(|s|, k requires 0 <= k < |s| => UpperChar(s[k]))
  }

  /** Upper-casing twice is upper-casing once. */
  lemma UpperIdempotent(s: string)
    ensures Upper(Upper(s)) == Upper(s)
  {
  }
}

=== FILE: wrappers.dfy ===
/** Option and Result, the two failure-carrying datatypes the model uses in place of
    Python's `None` and raised exceptions. */
module Wrappers {

  /** A value that may be absent (Python's `Optional[T]`). */
  datatype Option<T> = None | Some(value: T) {

    /** The value, or `default` when absent (Python's `x if x is not None else default`). */
    function GetOr(default: T): T {
      match this
      case Some(v) => v
      case None => default
    }
  }

  /** Either a value or the error that prevented it. */
  datatype Result<T, E> = Success(value: T) | Failure(error: E)
}
